=== FILE: README.md ===
# react-admin-firebase data provider: resource cache and query engine

This project models `FirebaseClient`, the class in `src/firebaseDataProvider.ts`
that serves react-admin's data-provider calls from Firestore. The model
covers four parts:

- **The resource registry.** `initPath` registers a resource name with an empty
  in-memory mirror list. The collection's snapshot subscription then replaces
  that list wholesale through `setList`. `tryGetResource` looks a name up and
  throws for an unregistered one. `parseFireStoreDocument` turns a snapshot
  document into a record.
- **The query helpers.** `sortArray` sorts in place on a lower-cased string key.
  `filterArray` and `isEmptyObj` do case-insensitive substring filtering, folded
  with a `reduce`. The page slice and `total` of `apiGetList` and
  `apiGetManyReference` are modelled with JavaScript `slice` semantics.
- **The Template/Users overlay.** Five hard-coded "Users" resources each overlay
  a template resource: the same name with `"Users"` removed. `apiGetList` merges
  the principal's own published records with the published template records
  they do not yet answer. `apiGetOne`, `apiGetMany` and `apiGetManyReference`
  fall back from the Users collection to the template collection.
- **The CRUD operations.** These are `apiGetList`, `apiGetOne`, `apiGetMany`,
  `apiGetManyReference`, `apiCreate`, `apiUpdate` (an upsert for the Users
  family), `apiUpdateMany`, `apiDelete` and `apiDeleteMany`.

Everything is a pure function:

- **Registry**: `map<string, seq<Record>>`, one mirror list per registered name.
  A read that sorts a mirror list in place returns the new registry beside its
  result (`Listed`).
- **Document store**: collection to key to fields (`Store`). `minted` counts the
  keys `add` has handed out. The key sequence itself is a parameter
  `keys: nat -> string`, because Firestore generates keys at random. Where a
  property depends on it, the generated keys are taken to be fresh
  (`DocStore.FreshKeys`): distinct, and naming no existing document. A
  snapshot delivers each `serverTimestamp()` sentinel as the commit's
  timestamp (`DocStore.Resolve`).
- **Fresh reads** (`getFirebaseSource`): a map from collection name to the
  documents read (`SourceReads`). A collection missing from the map stands for
  a read the store rejected.
- **Principal**: the current user, a parameter `Principal(uid, email)`.
- **Webhook**: the scoring webhook call is recorded as data in an update's
  result (`Updated.webhooks`).
- **Records**: maps from field name to `Value`, which is a string, a boolean,
  `null`, a stored timestamp (carried as its ISO text) or the `serverTimestamp()`
  write sentinel. `undefined` is `None`.
- **Errors**: a thrown exception or a rejected promise is an `Err` of
  `Outcomes.Result`:
  - `ResourceNotFound`: from `tryGetResource`;
  - `NotFound`: `getOne` found no record;
  - `TypeError`: `.toLowerCase()` called on a value that is not a string;
  - `StoreFailure`: the store rejected a read or write.

Modules, one per concern:

- `Outcomes`: `Option`, `Result`.
- `Text`: ASCII lower-casing, `includes`, JavaScript string `<`.
- `Values`: values, records, truthiness, `===`.
- `Seqs`: order-preserving selection, last match, subsequences.
- `Query`: `sortArray`, `filterArray`, `slice` and pagination.
- `Registry`: `initPath`, `setList`, `tryGetResource`, `parseFireStoreDocument`,
  `getFirebaseSource`.
- `DocStore`: the document store.
- `Overlay`: the Users family and the merge.
- `ReadApi`: the four reads.
- `WriteApi`: the five writes.
- `Scenarios`: properties that span several calls.

## Behaviour of the code worth knowing

The model follows the code in each of these cases.

- **Sort direction.** `sortArray(..., "asc")` puts greater keys first
  (`src/firebaseDataProvider.ts:631-636`), so "asc" lists keys in
  non-increasing order and "desc" in non-decreasing order. "asc" is the exact
  reverse of "desc" only when no two records share a key. Records with equal
  keys keep their input order under both directions, because the sort is
  stable.
- **Filter with several fields.** A record whose value for a filter field is
  `null` or absent does not merely fail that field: the `reduce` returns
  `false` and discards any earlier match (`src/firebaseDataProvider.ts:653-654`).
  So the last filter field decides whenever its value is null or absent.
- **Filter on non-string values.** With a single filter field, a filter value of
  `""` keeps every record whose field is a string; with several fields a later
  null or absent field still discards the record. A non-null field that is not a string (a boolean or a
  timestamp) makes `.toLowerCase()` throw.
- **Pagination without `perPage`.** A pagination object without `perPage`
  slices with `perPage = -1`. For `{page: 1}`, or no page, that drops the last
  record; any other page is empty. Only an absent pagination parameter returns
  the whole list.
- **Webhook id for `users`.** An update of `users` calls the webhook with the
  requested id, not the principal's uid (`src/firebaseDataProvider.ts:441`).
  It does so before the write, even when the write then fails.
- **Upsert response id.** For data without a truthy `myId`, an upsert stores
  exactly what `apiCreate` would store for the data with `data.id` removed and
  `questionId: id` added. With a truthy `myId`, `apiCreate` would instead store
  under the lower-cased `myId`, and the upsert keeps `myId` in the document. Its response carries the requested id;
  `apiCreate`'s response carries the generated key.
- **`apiUpdateMany` stamps.** It stamps `updatedByEmail`, with a lower-case `m`.
  `apiUpdate` stamps `updatedByEMail`. For a Users record missing from the
  mirror, `apiUpdateMany` adds a document without `questionId`, stamped only
  `createdate`/`createdByUid`/`createdByEmail`.

## Model

| member | source | states |
|---|---|---|
| Query.SortArray | src/firebaseDataProvider.ts:627-639 | the result is a permutation of the input of the same length, and no adjacent pair is out of order for the comparator (with "asc", a greater lower-cased key comes first) |
| Query.SortArrayKeys | src/firebaseDataProvider.ts:629-636 | with "asc" adjacent keys are non-increasing, with "desc" non-decreasing, and a falsy or missing field keys as the empty string |
| Query.AscEmptyKeysLast | src/firebaseDataProvider.ts:629-632 | with "asc" every record whose key is empty (falsy or missing field) comes after all records with a non-empty key |
| Query.DescReversed | src/firebaseDataProvider.ts:631-636 | reversing the "desc" result gives a list whose keys are non-increasing |
| Query.SortDirectionsReverse | src/firebaseDataProvider.ts:627-638 | when no two records share a key, the "asc" result is exactly the reverse of the "desc" result |
| Query.NonIncreasingUnique | src/firebaseDataProvider.ts:628-638 | two orderings of the same records whose keys are all distinct and non-increasing are the same sequence |
| Query.ReduceMeaning | src/firebaseDataProvider.ts:650-660 | the reduce throws `TypeError` exactly when some entry's search value is not a string or the record's value for it is neither null nor a string, and otherwise keeps a record exactly when some entry matches and every later entry finds a non-null value |
| Query.KeepMatchingMeaning | src/firebaseDataProvider.ts:649-661 | `data.filter(reduce)` throws exactly when some record throws, and otherwise keeps, in order, exactly the records the reduce keeps |
| Query.FilterArray | src/firebaseDataProvider.ts:641-662 | an empty filter returns the input unchanged; otherwise the result is an order-preserving subsequence holding each kept record as often as the input does, or `TypeError` exactly when some record throws |
| Query.FilterMembers | src/firebaseDataProvider.ts:641-662 | a successful `filterArray` holds exactly the input records that pass: all of them for an empty filter, the kept ones otherwise |
| Query.FilterSingleField | src/firebaseDataProvider.ts:650-659 | with one string filter a record is kept exactly when its field is a string whose lower-cased text contains the lower-cased search text |
| Query.FilterLastNullExcludes | src/firebaseDataProvider.ts:653-655 | a record whose value for the last filter field is null or absent is never kept, whatever the earlier fields matched |
| Query.FilterEmptyTextKeepsStrings | src/firebaseDataProvider.ts:651-658 | the empty search text keeps every record whose field is a string |
| Query.Paginate | src/firebaseDataProvider.ts:277-282 | no pagination returns the list unchanged; a page is always a contiguous run of it of at most `perPage` records, and for `page >= 1` the window `[(page-1)*perPage, (page-1)*perPage+perPage)` cut short at the end |
| Query.PaginateDefaultPerPageDropsLast | src/firebaseDataProvider.ts:277-281 | `{page: 1}` without `perPage` returns every record but the last |
| Query.PageOf | src/firebaseDataProvider.ts:277-282 | page `n` of `perPage` records is the `n`-th window of `perPage` consecutive records |
| Query.PagesPrefix | src/firebaseDataProvider.ts:277-282 | the first `n` pages laid end to end are the first `n * perPage` records |
| Query.PagesCoverAll | src/firebaseDataProvider.ts:277-282 | enough pages laid end to end reconstruct the whole list |
| Registry.InitPath | src/firebaseDataProvider.ts:70-99 | a known name keeps its list, a new name is registered with an empty list, and no other entry changes |
| Registry.InitPathIdempotent | src/firebaseDataProvider.ts:72-75 | a second `initPath` of the same name changes nothing |
| Registry.TryGetResource | src/firebaseDataProvider.ts:672-680 | succeeds exactly for registered names, with their list, and otherwise fails with `ResourceNotFound(name)` |
| Registry.InitPathThenLookup | src/firebaseDataProvider.ts:90-96 | after `initPath(name)` the lookup of `name` succeeds |
| Registry.SetList | src/firebaseDataProvider.ts:664-670 | replaces the whole list of a registered name and nothing else; an unregistered name fails with `ResourceNotFound` |
| Registry.ParseDocument | src/firebaseDataProvider.ts:55-68 | the record has the document's fields plus `id` (the document key unless a stored `id` field overrides it), and every timestamp is replaced by its ISO text |
| Registry.Deliver | src/firebaseDataProvider.ts:78-87 | a snapshot replaces the registered list by the parsed documents, in order, leaving other lists alone |
| Registry.InitThenDeliver | src/firebaseDataProvider.ts:70-99 | the first snapshot after `initPath` always lands, and no record of the new list holds a timestamp |
| Registry.FreshRead | src/firebaseDataProvider.ts:101-121 | a read returns `{id: doc.id, ...data}` for every document in order, without timestamp conversion, or fails with `StoreFailure` |
| DocStore.SetDoc | src/firebaseDataProvider.ts:129-143 | `doc(k).set` makes the document read back as written and leaves every other document alone |
| DocStore.Resolve | src/firebaseDataProvider.ts:137-138 | a delivered document keeps the stored fields, with every `serverTimestamp()` sentinel replaced by a timestamp, so no sentinel is ever delivered |
| DocStore.AddDoc | src/firebaseDataProvider.ts:158-170 | `add` stores the document under the next generated key and leaves every other document alone |
| DocStore.UpdateDoc | src/firebaseDataProvider.ts:184-194 | `doc(k).update` fails exactly when the document is missing, and otherwise overwrites the named fields and keeps the others |
| DocStore.UpdateUnawaited | src/firebaseDataProvider.ts:467-472 | an update nobody awaits is lost when the document is missing and otherwise equals the awaited update |
| DocStore.UpdateTwiceIsOnce | src/firebaseDataProvider.ts:498-507 | repeating an update with the same fields changes nothing more |
| DocStore.DeleteBatch | src/firebaseDataProvider.ts:535-540 | a committed batch removes exactly the listed documents of the collection |
| DocStore.DeleteBatchIdempotent | src/firebaseDataProvider.ts:535-540 | committing the same batch again leaves the store as it is |
| Overlay.FirstOccurrence | src/firebaseDataProvider.ts:240 | finds the first index at which the pattern occurs, or reports that none exists |
| Overlay.TemplateOfSuffix | src/firebaseDataProvider.ts:240 | `replace("Users", "")` on `base + "Users"` gives back `base` when `base` has no `U` |
| Overlay.TemplateOfFamily | src/firebaseDataProvider.ts:220-240 | each of the five Users resources is its template's name followed by `Users` |
| Overlay.TagQuestion | src/firebaseDataProvider.ts:268-270 | `{...doc, questionId: doc.id}` copies the id into `questionId` and changes no other field |
| Overlay.Merge | src/firebaseDataProvider.ts:228-274 | the own group holds, in order, exactly the principal's published records; the synthesized group holds exactly the tagged published template records that no own record answers, in template order |
| Overlay.MergePublishedNoDuplicate | src/firebaseDataProvider.ts:229-274 | every merged record is published, and no synthesized record shares its `questionId` with an own record |
| ReadApi.ListMatches | src/firebaseDataProvider.ts:218-275 | outside the Users family the list holds exactly the sorted mirror records the filter keeps, in sorted order; inside it, a split where the first group is exactly the principal's published kept records (in mirror order) and the second exactly the published kept template records none of them answers, tagged, in the order of the template read; it succeeds exactly when the filter accepts the sorted list and, for the family, the template read succeeds and the filter accepts it too; a filter `TypeError` on either list or a failed template read is the error |
| ReadApi.ListPage | src/firebaseDataProvider.ts:277-287 | `total` counts the whole list; no pagination returns the whole list; a page holds at most `perPage` records, taken from the list in its order |
| ReadApi.GetList | src/firebaseDataProvider.ts:204-288 | an unregistered name fails and changes nothing; otherwise the mirror list is sorted in place (a permutation in comparator order); only that list changes; it succeeds exactly when the filter accepts the sorted list and, for the Users family, the template read succeeds and the filter accepts it, failing with `TypeError` or `StoreFailure` otherwise; the page obeys the `perPage` bound; outside the Users family the returned records are a subsequence of the sorted mirror list, so they come in sort order; inside it every one is published |
| ReadApi.GetListTotalIgnoresPagination | src/firebaseDataProvider.ts:277-287 | success, `total` and the mirror afterwards do not depend on the pagination parameter |
| ReadApi.GetListPageIsWindow | src/firebaseDataProvider.ts:277-287 | page `n` of `perPage` records is the `n`-th window of the unpaged result, with the unpaged length as `total` |
| ReadApi.GetListPlainIsFilteredMirror | src/firebaseDataProvider.ts:208-218 | outside the Users family, without pagination, `getList` throws exactly when some mirror record meets a non-string filter value; otherwise it returns each mirror record the filter keeps, as often as it occurs there, in the order the sort gives |
| ReadApi.MergeShape | src/firebaseDataProvider.ts:271-274 | the merged list is the own records followed by tagged template records whose `questionId` no own record carries |
| ReadApi.MergeGroups | src/firebaseDataProvider.ts:220-274 | the merge of the filtered lists is exactly the own group followed by exactly the synthesized group |
| ReadApi.GetListOverlay | src/firebaseDataProvider.ts:220-275 | for a Users resource, when the filter accepts the mirror list and the template read and that read succeeds, an unpaged `getList` succeeds, reads the template collection and returns exactly the principal's published mirror records the filter keeps, in sorted mirror order, followed by exactly the kept published template records no own record answers, tagged and in the order of the template read, with no `questionId` in both groups |
| ReadApi.LastOf | src/firebaseDataProvider.ts:332-337 | `filter(p).pop()` fails with `NotFound` exactly when nothing matches, and otherwise returns the last matching record |
| ReadApi.WithId | src/firebaseDataProvider.ts:325-327 | `{...doc, id}` carries the requested id and keeps every other field |
| ReadApi.GetOne | src/firebaseDataProvider.ts:290-338 | Users family: the last fresh Users match, else the last template match tagged with `questionId`; `users` without id: the principal's own mirror record; `profile`: the principal's `users` record under the requested id; otherwise the last mirror match; each miss fails with `NotFound` |
| ReadApi.GetOneFindsId | src/firebaseDataProvider.ts:314-337 | outside the Users family and `profile`, `getOne` succeeds exactly when the list has a record with the requested id (or the uid), and the record returned carries it |
| ReadApi.GetMany | src/firebaseDataProvider.ts:544-575 | returns, in list order, exactly the records whose id is requested; a Users resource falls back to the template collection only when no Users record matches |
| ReadApi.ReferenceSource | src/firebaseDataProvider.ts:581-605 | the matches are the records of the source list whose target field is `===` the value; the source is the mirror list outside the Users family, and inside it the fresh Users read when some record there matches, else the fresh template read; a failed read is `StoreFailure` |
| ReadApi.ReferencePage | src/firebaseDataProvider.ts:615-620 | `total` counts all matches; the page is the same window of the matches `getList` takes, holds at most `perPage` matching records |
| ReadApi.ReferenceMirror | src/firebaseDataProvider.ts:607-614 | with a sort, the mirror list is sorted in place ("ASC" as "asc", anything else as "desc"); without one, nothing changes |
| ReadApi.GetManyReference | src/firebaseDataProvider.ts:577-621 | fails exactly when the source read fails; otherwise `total` counts the matches and the page is their `getList` window, within the `perPage` bound, for every resource; a Users resource counts the Users matches or, when there are none, the template matches; the mirror list of a plain resource is re-sorted |
| ReadApi.GetManyReferenceSortIgnored | src/firebaseDataProvider.ts:607-620 | the `sort` parameter never changes the returned page or total |
| WriteApi.CreateStampsProvenance | src/firebaseDataProvider.ts:135-143 | a created document carries the principal's uid and email as creator and updater, server timestamps, and every other field of the data |
| WriteApi.Create | src/firebaseDataProvider.ts:340-363 | unregistered: `ResourceNotFound`; a non-string truthy `myId`: `TypeError`; a string `myId`: stored under its lower-cased text without `myId`, answered with that id; otherwise added under the next generated key, answered with that key |
| WriteApi.Update | src/firebaseDataProvider.ts:365-456 | `id` stripped; Users family without a mirror record: an add tagged `questionId`; `profile`: an update of the principal's `users` document; otherwise an update of `id`, failing when the document is missing; the answer carries the requested id; webhook calls as the source makes them |
| WriteApi.UpdateFamily | src/firebaseDataProvider.ts:398-431 | the Users family branch: add when the mirror list lacks `id`, else update; the webhook only after a successful write |
| WriteApi.UpdatePlain | src/firebaseDataProvider.ts:433-455 | the other branch: update of the redirected document stamped `updatedByEMail`, and the webhook with the requested id for `users` |
| WriteApi.UpdateStripsId | src/firebaseDataProvider.ts:380-381 | the caller's `id` field is never written: an added document has none and an updated one keeps the `id` it had |
| WriteApi.UpsertIsCreate | src/firebaseDataProvider.ts:407-417 | for data without a truthy `myId`, an upsert leaves the store exactly as `apiCreate` of the data with `id` removed and tagged with `questionId` would, and answers the same apart from `id` |
| WriteApi.UpdateMany | src/firebaseDataProvider.ts:458-514 | one entry per requested id, in request order, each carrying that id and otherwise the data |
| WriteApi.UpdateEachMerges | src/firebaseDataProvider.ts:466-508 | when no add happens, every requested existing document gets the fields merged in, missing ones stay missing, and nothing else changes |
| WriteApi.UpdateEachFamilyAdds | src/firebaseDataProvider.ts:477-509 | for a Users resource, with fresh generated keys, each requested id missing from the mirror list adds one document holding the data and the creation stamps under the next key; every other document is patched with the update stamps when requested and present, else unchanged; no other collection changes |
| WriteApi.Delete | src/firebaseDataProvider.ts:516-526 | the document is gone, nothing else changes, and the answer is the caller's `previousData` |
| WriteApi.DeleteIdempotent | src/firebaseDataProvider.ts:516-526 | deleting twice is deleting once |
| WriteApi.DeleteMany | src/firebaseDataProvider.ts:528-542 | one `{id}` entry per requested id, in request order; exactly the requested documents are gone |
| WriteApi.DeleteManyIdempotent | src/firebaseDataProvider.ts:528-542 | repeating the call answers the same and leaves the store as the first call left it |
| Scenarios.CreateThenGetOne | src/firebaseDataProvider.ts:340-363 | after a create with a string `myId` and the snapshot that follows, `getOne` of the lower-cased id returns the stored record with the principal's provenance, its server timestamps read back as the commit time's ISO text |
| Scenarios.DeleteManyThenList | src/firebaseDataProvider.ts:528-542 | after `deleteMany(ids)` and the snapshot that follows, `getList` returns no record with any of those ids |
| Scenarios.OverlaySynthesizes | src/firebaseDataProvider.ts:251-274 | with no Users record yet, listing `analysisDataUsers` synthesizes the template record `t1` tagged `questionId: "t1"` |
| Scenarios.OverlayStopsDuplicate | src/firebaseDataProvider.ts:251-274 | once the principal's record answers `t1`, listing returns that record and no synthesized duplicate |
| Scenarios.DispatchRegistersList | src/firebaseDataProvider.ts:703-715 | since every call is preceded by `initPath`, `getList` and `getManyReference` never fail with `ResourceNotFound` |
| Scenarios.DispatchRegistersOne | src/firebaseDataProvider.ts:703-717 | nor do `getOne` and `getMany` |
| Scenarios.DispatchRegistersWrites | src/firebaseDataProvider.ts:703-727 | nor do any of the five writes |

## Left out

- **The authentication provider** (`src/firebaseAuthProvider.ts`). It is sign-in glue
  around the Firebase SDK and is not part of this model.
- **SDK plumbing.** This covers the Firestore SDK objects, the rxjs `Observable`,
  the asynchrony of `initPath` and the debug `log` calls. The model keeps only
  the state changes: registration, then wholesale `setList` on each snapshot.
- **Concurrency.** Un-awaited writes (`apiUpdateMany`, `apiDelete`, `apiDeleteMany`)
  are sequential store effects in issue order. Interleaving, batch atomicity
  and the timing of their rejections are not modelled. A rejected `update`
  nobody awaits is lost. Un-awaited `add` and `delete` always succeed.
- **Webhook failures.** The scoring webhook is an outbound HTTP call; the model
  records it in the result. A failing webhook rejects an awaited update in the
  source; that outcome is not modelled.
- **Store errors.** An awaited `set` or `add` that the store rejects is not
  modelled, and neither is the loss of its cause.
- **Unauthenticated calls.** A call without a signed-in principal dereferences
  `null`; the principal is always given.
- **Value kinds.** Numbers, arrays and nested objects are not among the modelled
  values. A timestamp's `toString()` is modelled as its ISO text. A snapshot
  is taken after the writes have landed; the `null` a pending local write
  shows for a server timestamp is not modelled. Timestamp
  objects are never `===` to each other, as distinct objects.
- **Text.** Lower-casing is ASCII only. JavaScript string `<` is modelled as
  lexicographic order on the model's characters, not on UTF-16 code units.
- **Query.SortArray**: modelled as a stable insertion sort. The ordering
  contract is the comparator's; the engine's algorithm and its call sequence
  are not modelled.
- **ReadApi.GetManyReference**: `params.pagination.page` and
  `params.pagination.perPage` are taken as integers that are always present.
  A missing pagination object (a `TypeError` in the source) is not modelled.
- **ReadApi.GetOne**: with `profile` and an `undefined` id, the source answers a
  record whose `id` key holds `undefined`; the model drops the key. Both read
  as `undefined`.
- **Aliasing and in-place mutation.** The source mutates the caller's
  `params.data` (`delete params.data["myId"]`, `delete params.data.id`,
  `params.data["questionId"] = id`), and for an empty filter without
  pagination `apiGetList` returns the live mirror array, which a later
  in-place sort reorders. The model passes records and lists by value, so
  the caller's objects never change and a returned page is a snapshot.
- **The dispatch switch** (`FirebaseProvider`): only its `initPath` call before
  every operation is modelled; the unknown-type default is left out.

=== FILE: outcomes.dfy ===
/** Success and failure values shared by every module of the model. */
module Outcomes {

  /** An optional value; `None` plays the part of JavaScript's `undefined`. */
  datatype Option<+T> = None | Some(value: T)

  /** The ways an operation of the data provider can fail. */
  datatype Error =
    | ResourceNotFound(name: string)  // registry lookup of a name never passed to initPath
    | NotFound                        // getOne found no record with the requested id
    | TypeError                       // a string method called on a value that is not a string
    | StoreFailure                    // a remote read, or an awaited remote write, was rejected

  /** The outcome of an operation that may throw or reject. */
  datatype Result<+T> = Ok(value: T) | Err(error: Error) {

    predicate IsFailure() {
      Err?
    }

    function PropagateFailure<U>(): Result<U>
      requires Err?
    {
      Err(error)
    }

    function Extract(): T
      requires Ok?
    {
      value
    }
  }
}

=== FILE: overlay.dfy ===
/**
 * The Template/Users overlay. Five hard-coded "Users" resources each lay
 * the current principal's records over a template resource whose name is
 * the Users name with `"Users"` removed. Listing merges the principal's own
 * published records with the published template records they do not yet
 * overlay.
 */
module Overlay {
  import opened Outcomes
  import opened Text
  import opened Values
  import opened Seqs

  /** The resources the provider treats as per-user overlays. */
  const UsersFamily: seq<string> := [
    "analysisActionsUsers",
    "analysisDataUsers",
    "analysisProductionUsers",
    "analysisSystemUsers",
    "analysisTeamUsers"
  ]

  /** `UsersFamily.indexOf(name) !== -1`. */
  predicate IsUsersFamily(name: string) {
    name in UsersFamily
  }

  /** The first index at or after `from` where `pat` occurs in `s`. */
  function FirstOccurrence(s: string, pat: string, from: nat): (r: Option<nat>)
    ensures r.Some? ==> from <= r.value && OccursAt(s, pat, r.value)
    ensures r.Some? ==> forall k :: from <= k < r.value ==> !OccursAt(s, pat, k)
    ensures r.None? ==> forall k :: from <= k ==> !OccursAt(s, pat, k)
    decreases |s| - from
  {
    if from + |pat| > |s| then None
    else if s[from..from + |pat|] == pat then Some(from)
    else FirstOccurrence(s, pat, from + 1)
  }

  /** `s.replace(pat, rep)` with a string pattern: only the first occurrence
      is replaced. */
  function ReplaceFirst(s: string, pat: string, rep: string): string {
    match FirstOccurrence(s, pat, 0)
    case None => s
    case Some(k) => s[..k] + rep + s[k + |pat|..]
  }

  /** `resourceName.replace("Users", "")`: the template a Users resource overlays. */
  function TemplateOf(name: string): string {
    ReplaceFirst(name, "Users", "")
  }

  /** Removing the first `"Users"` from `base + "Users"` gives back `base`
      when `base` has no upper-case `U`. */
  lemma {:induction false} TemplateOfSuffix(base: string)
    requires 'U' !in base
    ensures TemplateOf(base + "Users") == base
  {
    var s := base + "Users";
    assert OccursAt(s, "Users", |base|) by {
      assert s[|base|..|base| + 5] == "Users";
    }
    forall k | 0 <= k < |base|
      ensures !OccursAt(s, "Users", k)
    {
      assert s[k] == base[k] && base[k] in base;
      assert k + 5 <= |s| ==> s[k..k + 5][0] == s[k];
    }
    var r := FirstOccurrence(s, "Users", 0);
    assert r == Some(|base|);
    assert s[..|base|] == base;
    assert s[|base| + 5..] == [];
  }

  /** Every Users resource maps to its name without the `Users` suffix. */
  lemma TemplateOfFamily(name: string)
    requires IsUsersFamily(name)
    ensures TemplateOf(name) + "Users" == name
  {
    if name == "analysisActionsUsers" {
      assert name == "analysisActions" + "Users";
      TemplateOfSuffix("analysisActions");
    } else if name == "analysisDataUsers" {
      assert name == "analysisData" + "Users";
      TemplateOfSuffix("analysisData");
    } else if name == "analysisProductionUsers" {
      assert name == "analysisProduction" + "Users";
      TemplateOfSuffix("analysisProduction");
    } else if name == "analysisSystemUsers" {
      assert name == "analysisSystem" + "Users";
      TemplateOfSuffix("analysisSystem");
    } else {
      assert name == "analysisTeamUsers";
      assert name == "analysisTeam" + "Users";
      TemplateOfSuffix("analysisTeam");
    }
  }

  /** `item.published === true`. */
  predicate Published(r: Record) {
    StrictEquals(Field(r, "published"), Some(Bool(true)))
  }

  /** `item.createdByUid === uid && item.published === true`. */
  predicate OwnPublished(r: Record, uid: string) {
    StrictEquals(Field(r, "createdByUid"), Some(Str(uid))) && Published(r)
  }

  /** Some record of `own` carries the template record's id as its `questionId`. */
  predicate Overlaid(t: Record, own: seq<Record>) {
    exists o | o in own :: StrictEquals(Field(o, "questionId"), Field(t, "id"))
  }

  /** `{ ...doc, questionId: doc.id }`; an `undefined` id leaves no
      `questionId` behind. */
  function TagQuestion(t: Record): (r: Record)
    ensures Field(r, "questionId") == Field(t, "id")
    ensures forall k :: k != "questionId" ==> Field(r, k) == Field(t, k)
  {
    if "id" in t then t["questionId" := t["id"]] else t - {"questionId"}
  }

  /** The two groups `apiGetList` returns for a Users resource. */
  datatype Merged = Merged(own: seq<Record>, synthesized: seq<Record>)

  /** The overlay merge: the principal's published records, then each
      published template record no own record overlays, tagged with its id
      as `questionId`. */
  function Merge(users: seq<Record>, templates: seq<Record>, uid: string): (m: Merged)
    ensures Subsequence(m.own, users)
    ensures forall x :: x in m.own <==> x in users && OwnPublished(x, uid)
    ensures forall x :: x in m.synthesized ==>
      exists t :: t in templates && Published(t) && !Overlaid(t, m.own) && x == TagQuestion(t)
    ensures forall t :: t in templates && Published(t) && !Overlaid(t, m.own) ==> TagQuestion(t) in m.synthesized
    ensures |m.synthesized| <= |templates|
    ensures Subsequence(m.synthesized, Map(templates, TagQuestion))
  {
    var own := Select(users, (x: Record) => OwnPublished(x, uid));
    var candidates := Select(templates, (t: Record) => Published(t) && !Overlaid(t, own));
    SubsequenceLength(candidates, templates);
    var synthesized := Map(candidates, TagQuestion);
    MapMembers(candidates, TagQuestion);
    MapSubsequence(candidates, templates, TagQuestion);
    Merged(own, synthesized)
  }

  /** Every record the merge returns is published, and no template id is
      both overlaid by an own record and synthesized again. */
  lemma MergePublishedNoDuplicate(users: seq<Record>, templates: seq<Record>, uid: string)
    ensures var m := Merge(users, templates, uid);
      forall x :: x in m.own + m.synthesized ==> Published(x)
    ensures var m := Merge(users, templates, uid);
      forall x, o :: x in m.synthesized && o in m.own ==>
        !StrictEquals(Field(o, "questionId"), Field(x, "questionId"))
  {
    var m := Merge(users, templates, uid);
    forall x | x in m.own + m.synthesized
      ensures Published(x)
    {
      if x in m.synthesized {
        var t :| t in templates && Published(t) && !Overlaid(t, m.own) && x == TagQuestion(t);
        assert Field(x, "published") == Field(t, "published");
      }
    }
    forall x, o | x in m.synthesized && o in m.own
      ensures !StrictEquals(Field(o, "questionId"), Field(x, "questionId"))
    {
      var t :| t in templates && Published(t) && !Overlaid(t, m.own) && x == TagQuestion(t);
    }
  }
}

=== FILE: query.dfy ===
/**
 * The query engine of `FirebaseClient`: `sortArray`, `filterArray` with
 * `isEmptyObj`, and the page arithmetic of `apiGetList` and
 * `apiGetManyReference` (JavaScript `Array.prototype.slice`).
 */
module Query {
  import opened Outcomes
  import opened Text
  import opened Values
  import opened Seqs

  // ---------------------------------------------------------------- sorting

  /** The two directions `sortArray` accepts. */
  datatype Direction = Asc | Desc

  /** The comparison key of a record: its field value stringified and
      lower-cased, or `""` when the value is falsy or missing. */
  function SortKey(r: Record, field: string): string {
    var v := Field(r, field);
    if Truthy(v) then Lower(Stringify(v.value)) else ""
  }

  /** The comparator returns a negative number: `a` is placed before `b`.
      For `Asc` this happens when `a`'s key is the GREATER one. */
  predicate Before(dir: Direction, field: string, a: Record, b: Record) {
    match dir
    case Asc => LexLess(SortKey(b, field), SortKey(a, field))
    case Desc => LexLess(SortKey(a, field), SortKey(b, field))
  }

  /** The comparator never places each of two records before the other. */
  lemma BeforeAsymmetric(dir: Direction, field: string, a: Record, b: Record)
    ensures Before(dir, field, a, b) ==> !Before(dir, field, b, a)
  {
    LexLessAsymmetric(SortKey(a, field), SortKey(b, field));
    LexLessAsymmetric(SortKey(b, field), SortKey(a, field));
  }

  /** A strict comparison that never places each of two values before the other. */
  ghost predicate Asymmetric<T(!new)>(before: (T, T) -> bool) {
    forall a, b :: before(a, b) ==> !before(b, a)
  }

  /** No element is placed strictly before its predecessor by the comparator. */
  ghost predicate Ordered<T>(before: (T, T) -> bool, s: seq<T>) {
    forall i :: 0 < i < |s| ==> !before(s[i], s[i - 1])
  }

  /** Stable insertion of `x` in front of the first element it does not follow. */
  function Insert<T(!new)>(before: (T, T) -> bool, x: T, s: seq<T>): (r: seq<T>)
    requires Asymmetric(before) && Ordered(before, s)
    ensures Ordered(before, r)
    ensures multiset(r) == multiset(s) + multiset{x}
    ensures |r| > 0 && (r[0] == x || (|s| > 0 && r[0] == s[0]))
    decreases |s|
  {
    if s == [] then [x]
    else if before(s[0], x) then
      var rest := Insert(before, x, s[1..]);
      assert s == [s[0]] + s[1..];
      OrderedCons(before, s[0], rest, s[1..], x);
      [s[0]] + rest
    else
      OrderedPrepend(before, x, s);
      [x] + s
  }

  /** An element the head of an ordered sequence does not precede may go in front. */
  lemma OrderedPrepend<T>(before: (T, T) -> bool, x: T, s: seq<T>)
    requires Ordered(before, s)
    requires |s| > 0 ==> !before(s[0], x)
    ensures Ordered(before, [x] + s)
  {
    var r := [x] + s;
    forall i | 0 < i < |r|
      ensures !before(r[i], r[i - 1])
    {
      if i > 1 {
        assert r[i] == s[i - 1] && r[i - 1] == s[i - 2];
      }
    }
  }

  /** Putting `y` in front of an ordered `rest` whose head is `x` (which `y`
      precedes) or the original successor of `y` keeps the order. */
  lemma OrderedCons<T(!new)>(before: (T, T) -> bool, y: T, rest: seq<T>, tail: seq<T>, x: T)
    requires Asymmetric(before)
    requires Ordered(before, rest) && Ordered(before, [y] + tail)
    requires before(y, x)
    requires |rest| > 0 && (rest[0] == x || (|tail| > 0 && rest[0] == tail[0]))
    ensures Ordered(before, [y] + rest)
  {
    if rest[0] != x {
      assert ([y] + tail)[1] == tail[0] && ([y] + tail)[0] == y;
    }
    OrderedPrepend(before, y, rest);
  }

  /** Insertion sort: stable, and a permutation ordered by `before`. */
  function InsertionSort<T(!new)>(before: (T, T) -> bool, s: seq<T>): (r: seq<T>)
    requires Asymmetric(before)
    ensures multiset(r) == multiset(s)
    ensures |r| == |s|
    ensures Ordered(before, r)
    decreases |s|
  {
    if s == [] then []
    else
      assert s == [s[0]] + s[1..];
      Insert(before, s[0], InsertionSort(before, s[1..]))
  }

  /** `sortArray(data, field, dir)`: a stable sort with the comparator above. */
  function SortArray(data: seq<Record>, field: string, dir: Direction): (r: seq<Record>)
    ensures multiset(r) == multiset(data)
    ensures |r| == |data|
    ensures forall i :: 0 < i < |r| ==> !Before(dir, field, r[i], r[i - 1])
  {
    var before := (a, b) => Before(dir, field, a, b);
    forall a, b
      ensures before(a, b) ==> !before(b, a)
    {
      BeforeAsymmetric(dir, field, a, b);
    }
    InsertionSort(before, data)
  }

  /** With `"asc"` the keys come out non-increasing, with `"desc"`
      non-decreasing; the result is a permutation of the input. */
  lemma SortArrayKeys(data: seq<Record>, field: string, dir: Direction)
    ensures multiset(SortArray(data, field, dir)) == multiset(data)
    ensures var r := SortArray(data, field, dir);
      dir == Asc ==> forall i :: 0 < i < |r| ==> LexLessEq(SortKey(r[i], field), SortKey(r[i - 1], field))
    ensures var r := SortArray(data, field, dir);
      dir == Desc ==> forall i :: 0 < i < |r| ==> LexLessEq(SortKey(r[i - 1], field), SortKey(r[i], field))
  {
    var r := SortArray(data, field, dir);
    forall i | 0 < i < |r|
      ensures LexLess(SortKey(r[i], field), SortKey(r[i - 1], field)) || SortKey(r[i], field) == SortKey(r[i - 1], field)
              || LexLess(SortKey(r[i - 1], field), SortKey(r[i], field))
    {
      LexLessTotal(SortKey(r[i], field), SortKey(r[i - 1], field));
    }
  }

  /** The keys never increase from one element to the next. */
  ghost predicate NonIncreasing<T>(s: seq<T>, key: T -> string) {
    forall i :: 0 < i < |s| ==> LexLessEq(key(s[i]), key(s[i - 1]))
  }

  /** The comparison key of `field` as a function on records. */
  function KeyOf(field: string): Record -> string {
    (r: Record) => SortKey(r, field)
  }

  /** In a non-increasing list no key exceeds an earlier one. */
  lemma {:induction false} NonIncreasingSpan<T>(s: seq<T>, key: T -> string, i: int, j: int)
    requires NonIncreasing(s, key) && 0 <= i <= j < |s|
    ensures LexLessEq(key(s[j]), key(s[i]))
    decreases j - i
  {
    if i < j {
      NonIncreasingSpan(s, key, i, j - 1);
      var a, b, c := key(s[j]), key(s[j - 1]), key(s[i]);
      if LexLess(a, b) && LexLess(b, c) {
        LexLessTransitive(a, b, c);
      }
    }
  }

  /** With `"asc"` a record whose key is empty (its field falsy or missing)
      is followed only by records whose key is empty too. */
  lemma AscEmptyKeysLast(data: seq<Record>, field: string)
    ensures var r := SortArray(data, field, Asc);
      forall i, j :: 0 <= i < j < |r| && SortKey(r[i], field) == "" ==> SortKey(r[j], field) == ""
  {
    var r := SortArray(data, field, Asc);
    SortArrayKeys(data, field, Asc);
    assert NonIncreasing(r, KeyOf(field));
    forall i, j | 0 <= i < j < |r| && SortKey(r[i], field) == ""
      ensures SortKey(r[j], field) == ""
    {
      NonIncreasingSpan(r, KeyOf(field), i, j);
    }
  }

  /** No two different elements of `s` have the same key. */
  ghost predicate KeysDistinguish<T>(s: seq<T>, key: T -> string) {
    forall x, y :: x in s && y in s && key(x) == key(y) ==> x == y
  }

  /** Dropping the head keeps a list non-increasing. */
  lemma NonIncreasingTail<T>(s: seq<T>, key: T -> string)
    requires NonIncreasing(s, key) && |s| > 0
    ensures NonIncreasing(s[1..], key)
  {
    forall k | 0 < k < |s[1..]|
      ensures LexLessEq(key(s[1..][k]), key(s[1..][k - 1]))
    {
      assert s[1..][k] == s[k + 1] && s[1..][k - 1] == s[k];
    }
  }

  /** A list has only one arrangement with non-increasing keys when the keys
      tell its elements apart. */
  lemma {:induction false} NonIncreasingUnique<T(!new)>(a: seq<T>, b: seq<T>, key: T -> string)
    requires multiset(a) == multiset(b)
    requires NonIncreasing(a, key) && NonIncreasing(b, key)
    requires KeysDistinguish(a, key)
    ensures a == b
    decreases |a|
  {
    assert |a| == |multiset(a)| == |multiset(b)| == |b|;
    if |a| > 0 {
      SameHead(a, b, key);
      SameTail(a, b);
      NonIncreasingTail(a, key);
      NonIncreasingTail(b, key);
      NonIncreasingUnique(a[1..], b[1..], key);
      assert a == [a[0]] + a[1..] && b == [b[0]] + b[1..];
    }
  }

  /** Two such arrangements start with the same element: each head has the
      greatest key of the list. */
  lemma SameHead<T(!new)>(a: seq<T>, b: seq<T>, key: T -> string)
    requires multiset(a) == multiset(b) && |a| > 0 && |b| > 0
    requires NonIncreasing(a, key) && NonIncreasing(b, key)
    requires KeysDistinguish(a, key)
    ensures a[0] == b[0]
  {
    PermutationMembers(a, b);
    assert a[0] in b;
    var j :| 0 <= j < |b| && b[j] == a[0];
    assert b[0] in a;
    var i :| 0 <= i < |a| && a[i] == b[0];
    NonIncreasingSpan(b, key, 0, j);
    NonIncreasingSpan(a, key, 0, i);
    LexLessAsymmetric(key(a[0]), key(b[0]));
  }

  /** Permutations with the same head have permuted tails. */
  lemma SameTail<T>(a: seq<T>, b: seq<T>)
    requires multiset(a) == multiset(b) && |a| > 0 && |b| > 0 && a[0] == b[0]
    ensures multiset(a[1..]) == multiset(b[1..])
  {
    assert a == [a[0]] + a[1..] && b == [b[0]] + b[1..];
    assert multiset(a[1..]) == multiset(a) - multiset{a[0]};
    assert multiset(b[1..]) == multiset(b) - multiset{b[0]};
  }

  /** The reverse of a `"desc"` result has non-increasing keys. */
  lemma DescReversed(data: seq<Record>, field: string)
    ensures NonIncreasing(Reverse(SortArray(data, field, Desc)), KeyOf(field))
  {
    var d := SortArray(data, field, Desc);
    var r := Reverse(d);
    SortArrayKeys(data, field, Desc);
    forall i | 0 < i < |r|
      ensures LexLessEq(KeyOf(field)(r[i]), KeyOf(field)(r[i - 1]))
    {
      var k := |d| - i;
      assert LexLessEq(SortKey(d[k - 1], field), SortKey(d[k], field));
      assert r[i] == d[k - 1] && r[i - 1] == d[k];
    }
  }

  /** When no two different records share a key, `"asc"` orders the data
      exactly in reverse of `"desc"`. (With shared keys the stable sort keeps
      tied records in input order in both directions.) */
  lemma SortDirectionsReverse(data: seq<Record>, field: string)
    requires KeysDistinguish(data, KeyOf(field))
    ensures SortArray(data, field, Asc) == Reverse(SortArray(data, field, Desc))
  {
    var a := SortArray(data, field, Asc);
    var d := SortArray(data, field, Desc);
    SortArrayKeys(data, field, Asc);
    assert NonIncreasing(a, KeyOf(field));
    DescReversed(data, field);
    ReversePermutation(d);
    PermutationMembers(a, data);
    assert KeysDistinguish(a, KeyOf(field));
    NonIncreasingUnique(a, Reverse(d), KeyOf(field));
  }

  // -------------------------------------------------------------- filtering

  /** One entry of the filter object: a field name and its search value
      (`None` when the property is present but `undefined`). */
  datatype FilterEntry = FilterEntry(name: string, text: Option<Value>)

  /** A filter object, its entries in `Object.keys` order. */
  type Filter = seq<FilterEntry>

  /** `isEmptyObj(filter)`: `JSON.stringify` prints `{}` exactly when every
      property is `undefined`. */
  predicate IsEmptyObj(f: Filter) {
    forall i :: 0 <= i < |f| ==> f[i].text.None?
  }

  /** One step of the `reduce`: a null or missing record value resets the
      accumulator to `false`; a string value ORs in its substring test; any
      other value, or a search value that is not a string, throws. */
  function Step(acc: bool, item: Record, e: FilterEntry): Result<bool> {
    match e.text
    case Some(Str(t)) =>
      (match Field(item, e.name)
       case None => Ok(false)
       case Some(Null) => Ok(false)
       case Some(Str(s)) => Ok(acc || Contains(Lower(s), Lower(t)))
       case Some(_) => Err(TypeError))
    case _ => Err(TypeError)
  }

  /** `fieldNames.reduce(step, false)` over the first `|f|` entries (a left fold). */
  function Reduce(item: Record, f: Filter): Result<bool>
    decreases |f|
  {
    if f == [] then Ok(false)
    else
      var acc :- Reduce(item, f[..|f| - 1]);
      Step(acc, item, f[|f| - 1])
  }

  /** The entry throws for this record. */
  predicate Bad(item: Record, e: FilterEntry) {
    !(e.text.Some? && e.text.value.Str?)
    || (e.name in item && !item[e.name].Str? && !item[e.name].Null?)
  }

  /** The entry's search text occurs, case-insensitively, in the record's value. */
  predicate Hit(item: Record, e: FilterEntry) {
    e.text.Some? && e.text.value.Str? && e.name in item && item[e.name].Str?
    && Contains(Lower(item[e.name].s), Lower(e.text.value.s))
  }

  /** The record has a non-null value for the entry's field. */
  predicate Present(item: Record, e: FilterEntry) {
    e.name in item && !item[e.name].Null?
  }

  /** The record is kept: some entry hits and no later entry finds a null or
      missing value. This is "OR over the fields since the last null". */
  ghost predicate Kept(item: Record, f: Filter) {
    exists k :: 0 <= k < |f| && Hit(item, f[k]) && forall j :: k < j < |f| ==> Present(item, f[j])
  }

  /** The fold throws exactly when some entry is bad for the record, and
      otherwise yields `Kept`. */
  lemma {:induction false} ReduceMeaning(item: Record, f: Filter)
    ensures Reduce(item, f).Err? <==> exists j :: 0 <= j < |f| && Bad(item, f[j])
    ensures Reduce(item, f).Err? ==> Reduce(item, f).error == TypeError
    ensures Reduce(item, f).Ok? ==> (Reduce(item, f).value <==> Kept(item, f))
    decreases |f|
  {
    if f != [] {
      var n := |f| - 1;
      var init := f[..n];
      ReduceMeaning(item, init);
      assert forall j :: 0 <= j < n ==> f[j] == init[j];
      if Reduce(item, init).Ok? && !Bad(item, f[n]) {
        var acc := Reduce(item, init).value;
        if Reduce(item, f).value {
          if Hit(item, f[n]) {
            assert Kept(item, f) by {
              assert 0 <= n < |f| && Hit(item, f[n]);
            }
          } else {
            assert acc && Present(item, f[n]);
            var k :| 0 <= k < n && Hit(item, init[k]) && forall j :: k < j < n ==> Present(item, init[j]);
            assert forall j :: k < j < |f| ==> Present(item, f[j]);
          }
        }
      }
    }
  }

  /** The records of `data` the fold keeps, or the first TypeError. */
  function KeepMatching(data: seq<Record>, f: Filter): Result<seq<Record>>
    decreases |data|
  {
    if data == [] then Ok([])
    else
      var keep :- Reduce(data[0], f);
      var rest :- KeepMatching(data[1..], f);
      Ok(if keep then [data[0]] + rest else rest)
  }

  /** A record of the list meets an entry that throws. */
  predicate Throws(data: seq<Record>, f: Filter) {
    exists i, j :: 0 <= i < |data| && 0 <= j < |f| && Bad(data[i], f[j])
  }

  lemma {:induction false} KeepMatchingMeaning(data: seq<Record>, f: Filter)
    ensures KeepMatching(data, f).Err? <==> Throws(data, f)
    ensures KeepMatching(data, f).Err? ==> KeepMatching(data, f).error == TypeError
    ensures KeepMatching(data, f).Ok? ==>
      && Subsequence(KeepMatching(data, f).value, data)
      && forall x :: multiset(KeepMatching(data, f).value)[x] == if Kept(x, f) then multiset(data)[x] else 0
    decreases |data|
  {
    if data != [] {
      ReduceMeaning(data[0], f);
      KeepMatchingMeaning(data[1..], f);
      assert data == [data[0]] + data[1..];
      if Throws(data, f) && Reduce(data[0], f).Ok? {
        var i, j :| 0 <= i < |data| && 0 <= j < |f| && Bad(data[i], f[j]);
        assert i != 0;
        assert Bad(data[1..][i - 1], f[j]);
      }
      if Throws(data[1..], f) {
        var i, j :| 0 <= i < |data[1..]| && 0 <= j < |f| && Bad(data[1..][i], f[j]);
        assert Bad(data[i + 1], f[j]);
      }
      if KeepMatching(data, f).Ok? {
        var rest := KeepMatching(data[1..], f).value;
        var r := KeepMatching(data, f).value;
        if Reduce(data[0], f).value {
          assert r == [data[0]] + rest;
        } else {
          assert r == rest;
          assert Subsequence(data[1..], data) by {
            SubsequenceRefl(data[1..]);
          }
          SubsequenceTrans(rest, data[1..], data);
        }
      }
    }
  }

  /** `filterArray(data, filter)`. An empty filter object returns the input;
      otherwise the result is the order-preserving selection of the kept
      records (each with its full multiplicity), or a TypeError exactly when
      some record meets a non-string value. */
  function FilterArray(data: seq<Record>, f: Filter): (r: Result<seq<Record>>)
    ensures IsEmptyObj(f) ==> r == Ok(data)
    ensures r.Err? <==> !IsEmptyObj(f) && Throws(data, f)
    ensures r.Err? ==> r.error == TypeError
    ensures r.Ok? ==> Subsequence(r.value, data) && |r.value| <= |data|
    ensures r.Ok? && !IsEmptyObj(f) ==>
      forall x :: multiset(r.value)[x] == if Kept(x, f) then multiset(data)[x] else 0
  {
    if IsEmptyObj(f) then
      SubsequenceRefl(data);
      Ok(data)
    else
      KeepMatchingMeaning(data, f);
      var r := KeepMatching(data, f);
      if r.Ok? then
        SubsequenceLength(r.value, data);
        r
      else r
  }

  /** `filterArray` lets the record through: an empty filter object keeps
      every record, any other keeps the records the fold accepts. */
  ghost predicate Passes(item: Record, f: Filter) {
    IsEmptyObj(f) || Kept(item, f)
  }

  /** A successful `filterArray` holds exactly the records of the input
      that pass the filter. */
  lemma FilterMembers(data: seq<Record>, f: Filter)
    ensures FilterArray(data, f).Ok? ==>
      forall x :: x in FilterArray(data, f).value <==> x in data && Passes(x, f)
  {
    var r := FilterArray(data, f);
    if r.Ok? && !IsEmptyObj(f) {
      forall x
        ensures x in r.value <==> x in data && Passes(x, f)
      {
        assert x in r.value <==> x in multiset(r.value);
        assert x in data <==> x in multiset(data);
      }
    }
  }

  /** With one field, a record is kept exactly when its value is a non-null
      string containing the search text, ignoring case. */
  lemma FilterSingleField(item: Record, name: string, t: string)
    ensures Kept(item, [FilterEntry(name, Some(Str(t)))]) <==>
      name in item && item[name].Str? && Contains(Lower(item[name].s), Lower(t))
  {
    var f := [FilterEntry(name, Some(Str(t)))];
    if name in item && item[name].Str? && Contains(Lower(item[name].s), Lower(t)) {
      assert Hit(item, f[0]);
    }
  }

  /** A record whose LAST filter field is null or missing is never kept,
      whatever the earlier fields say. */
  lemma FilterLastNullExcludes(item: Record, f: Filter)
    requires |f| > 0
    requires f[|f| - 1].name !in item || item[f[|f| - 1].name] == Null
    ensures !Kept(item, f)
  {
    assert !Present(item, f[|f| - 1]);
  }

  /** An empty search text keeps every record whose field holds a string. */
  lemma FilterEmptyTextKeepsStrings(item: Record, name: string)
    requires name in item && item[name].Str?
    ensures Kept(item, [FilterEntry(name, Some(Str("")))])
  {
    var f := [FilterEntry(name, Some(Str("")))];
    ContainsEmpty(Lower(item[name].s));
    assert Hit(item, f[0]);
  }

  // ------------------------------------------------------------- pagination

  /** How `Array.prototype.slice` reads a start or end index: negative
      indices count from the end, and both are clamped to `[0, len]`. */
  function RelativeIndex(x: int, len: nat): (r: nat)
    ensures r <= len
    ensures 0 <= x <= len ==> r == x
    ensures x > len ==> r == len
    ensures x < 0 ==> r == if len + x < 0 then 0 else len + x
  {
    if x < 0 then (if len + x < 0 then 0 else len + x)
    else if x > len then len
    else x
  }

  /** `s.slice(start, end)`: a contiguous run of `s`. */
  function Slice<T>(s: seq<T>, start: int, end: int): (r: seq<T>)
    ensures var a, b := RelativeIndex(start, |s|), RelativeIndex(end, |s|);
      r == if a < b then s[a..b] else []
  {
    var a, b := RelativeIndex(start, |s|), RelativeIndex(end, |s|);
    if a < b then s[a..b] else []
  }

  /** A slice keeps the order of the list it is cut from. */
  lemma SliceIsSubsequence<T>(s: seq<T>, start: int, end: int)
    ensures Subsequence(Slice(s, start, end), s)
  {
    var a, b := RelativeIndex(start, |s|), RelativeIndex(end, |s|);
    if a < b {
      RunIsSubsequence(s, a, b);
    }
  }

  lemma {:induction false} RunIsSubsequence<T>(s: seq<T>, a: nat, b: nat)
    requires a <= b <= |s|
    ensures Subsequence(s[a..b], s)
    decreases |s|
  {
    if a == b {
    } else if a == 0 {
      SubsequenceRefl(s[..b]);
      PrefixIsSubsequence(s, b);
    } else {
      RunIsSubsequence(s[1..], a - 1, b - 1);
      assert s[1..][a - 1..b - 1] == s[a..b];
    }
  }

  lemma {:induction false} PrefixIsSubsequence<T>(s: seq<T>, b: nat)
    requires b <= |s|
    ensures Subsequence(s[..b], s)
    decreases |s|
  {
    if b > 0 {
      PrefixIsSubsequence(s[1..], b - 1);
      assert s[..b][1..] == s[1..][..b - 1];
    }
  }

  /** A slice from a non-negative start to a position `n` further on holds at
      most `n` elements, and they are the ones at those positions. */
  lemma SliceWindow<T>(s: seq<T>, start: int, n: int)
    requires 0 <= start && 0 <= n
    ensures var r := Slice(s, start, start + n);
      |r| <= n && r == s[Min(start, |s|)..Min(start + n, |s|)]
  {
  }

  function Min(a: int, b: int): int {
    if a < b then a else b
  }

  /** The page length never exceeds a non-negative page size, whatever the
      page number (negative start indices included). */
  lemma PageLengthBound<T>(s: seq<T>, page: int, perPage: int)
    requires perPage >= 0
    ensures |Slice(s, (page - 1) * perPage, (page - 1) * perPage + perPage)| <= perPage
  {
    var start := (page - 1) * perPage;
    var end := start + perPage;
    if page >= 1 {
      MulNonNegative(page - 1, perPage);
    } else {
      MulNonNegative(-page, perPage);
      assert end == -((-page) * perPage);
    }
  }

  lemma MulNonNegative(a: int, b: int)
    requires a >= 0 && b >= 0
    ensures a * b >= 0
  {
  }

  /** The `pagination` parameter of `getList`; absent fields take the
      defaults `page = 1`, `perPage = -1`. */
  datatype Pagination = Pagination(page: Option<int>, perPage: Option<int>)

  function PageStart(p: Pagination): int {
    var page := if p.page.Some? then p.page.value else 1;
    var perPage := if p.perPage.Some? then p.perPage.value else -1;
    (page - 1) * perPage
  }

  function PageEnd(p: Pagination): int {
    var perPage := if p.perPage.Some? then p.perPage.value else -1;
    PageStart(p) + perPage
  }

  /** The index of the first element of page `page` (counted from 1). */
  function FirstIndex(page: int, perPage: int): (r: nat)
    requires page >= 1 && perPage >= 0
    ensures r == (page - 1) * perPage
  {
    MulNonNegative(page - 1, perPage);
    (page - 1) * perPage
  }

  /** The page `getList` returns: the whole list when no pagination is
      given, the slice `[(page-1)*perPage, (page-1)*perPage+perPage)` otherwise. */
  function Paginate<T>(s: seq<T>, p: Option<Pagination>): (r: seq<T>)
    ensures p.None? ==> r == s
    ensures Subsequence(r, s)
    ensures p.Some? && p.value.perPage.Some? && p.value.perPage.value >= 0 ==>
      |r| <= p.value.perPage.value
    ensures p.Some? && p.value.page.Some? && p.value.page.value >= 1
            && p.value.perPage.Some? && p.value.perPage.value >= 0 ==>
      var start := FirstIndex(p.value.page.value, p.value.perPage.value);
      r == s[Min(start, |s|)..Min(start + p.value.perPage.value, |s|)]
  {
    match p
    case None => SubsequenceRefl(s); s
    case Some(pg) =>
      SliceIsSubsequence(s, PageStart(pg), PageEnd(pg));
      PageSliceFacts(s, pg);
      Slice(s, PageStart(pg), PageEnd(pg))
  }

  lemma PageSliceFacts<T>(s: seq<T>, pg: Pagination)
    ensures pg.perPage.Some? && pg.perPage.value >= 0 ==>
      |Slice(s, PageStart(pg), PageEnd(pg))| <= pg.perPage.value
    ensures pg.page.Some? && pg.page.value >= 1 && pg.perPage.Some? && pg.perPage.value >= 0 ==>
      var start := FirstIndex(pg.page.value, pg.perPage.value);
      Slice(s, PageStart(pg), PageEnd(pg)) == s[Min(start, |s|)..Min(start + pg.perPage.value, |s|)]
  {
    if pg.perPage.Some? && pg.perPage.value >= 0 {
      var page := if pg.page.Some? then pg.page.value else 1;
      var perPage := pg.perPage.value;
      assert PageStart(pg) == (page - 1) * perPage;
      assert PageEnd(pg) == (page - 1) * perPage + perPage;
      PageLengthBound(s, page, perPage);
      if page >= 1 {
        MulNonNegative(page - 1, perPage);
        SliceWindow(s, PageStart(pg), perPage);
      }
    }
  }

  /** A pagination object without `perPage` slices with `perPage = -1`,
      which drops the last element of the first page. */
  lemma PaginateDefaultPerPageDropsLast<T>(s: seq<T>)
    requires |s| > 0
    ensures Paginate(s, Some(Pagination(Some(1), None))) == s[..|s| - 1]
  {
  }

  /** The `n`-th window of `perPage` consecutive elements (counted from 1),
      cut short at the end of the list. */
  function Window<T>(s: seq<T>, perPage: nat, n: nat): seq<T>
    requires n >= 1
  {
    s[Min(Covered(n - 1, perPage), |s|)..Min(Covered(n, perPage), |s|)]
  }

  /** Windows `1..n` laid end to end. */
  function Pages<T>(s: seq<T>, perPage: nat, n: nat): seq<T> {
    if n == 0 then []
    else Pages(s, perPage, n - 1) + Window(s, perPage, n)
  }

  /** Page `n` of `perPage` elements, as `getList` returns it, is the `n`-th window. */
  function PageOf<T>(s: seq<T>, perPage: nat, n: nat): (r: seq<T>)
    requires n >= 1
    ensures r == Window(s, perPage, n)
  {
    PageBounds(perPage, n);
    Paginate(s, Some(Pagination(Some(n), Some(perPage))))
  }

  /** The number of elements `n` pages of `perPage` elements cover, counted
      page by page. */
  function Covered(n: nat, perPage: nat): nat {
    if n == 0 then 0 else Covered(n - 1, perPage) + perPage
  }

  /** Concatenating the first `n` pages gives the first `n * perPage` elements. */
  lemma {:induction false} PagesPrefix<T>(s: seq<T>, perPage: nat, n: nat)
    ensures Pages(s, perPage, n) == s[..Min(Covered(n, perPage), |s|)]
  {
    if n == 0 {
      assert Min(Covered(0, perPage), |s|) == 0;
    } else {
      PagesPrefix(s, perPage, n - 1);
      PagesStep(s, perPage, n);
    }
  }

  /** One more page extends the prefix covered so far. */
  lemma PagesStep<T>(s: seq<T>, perPage: nat, n: nat)
    requires n >= 1
    requires Pages(s, perPage, n - 1) == s[..Min(Covered(n - 1, perPage), |s|)]
    ensures Pages(s, perPage, n) == s[..Min(Covered(n, perPage), |s|)]
  {
    JoinSlices(s, Min(Covered(n - 1, perPage), |s|), Min(Covered(n, perPage), |s|));
  }

  /** `Covered` is the product `n * perPage`. */
  lemma {:induction false} CoveredIsProduct(n: nat, perPage: nat)
    ensures Covered(n, perPage) == n * perPage
  {
    if n > 0 {
      CoveredIsProduct(n - 1, perPage);
      MulStep(n, perPage);
    }
  }

  /** Page `n` runs from `(n - 1) * perPage` up to `n * perPage`. */
  lemma PageBounds(perPage: nat, n: nat)
    requires n >= 1
    ensures FirstIndex(n, perPage) == Covered(n - 1, perPage)
    ensures FirstIndex(n, perPage) + perPage == Covered(n, perPage)
  {
    CoveredIsProduct(n - 1, perPage);
  }

  /** Adjacent slices join. */
  lemma JoinSlices<T>(s: seq<T>, a: int, b: int)
    requires 0 <= a <= b <= |s|
    ensures s[..a] + s[a..b] == s[..b]
  {
  }

  /** `n * m == (n - 1) * m + m`. */
  lemma MulStep(n: int, m: int)
    ensures n * m == (n - 1) * m + m
  {
  }

  /** Enough pages reconstruct the whole list. */
  lemma PagesCoverAll<T>(s: seq<T>, perPage: nat, n: nat)
    requires Covered(n, perPage) >= |s|
    ensures Pages(s, perPage, n) == s
  {
    PagesPrefix(s, perPage, n);
  }
}

=== FILE: reads.dfy ===
/**
 * The read operations of `FirebaseClient`: `apiGetList`, `apiGetOne`,
 * `apiGetMany` and `apiGetManyReference`, over the registry's mirror lists
 * and the fresh collection reads of `getFirebaseSource`.
 */
module ReadApi {
  import opened Outcomes
  import opened Text
  import opened Values
  import opened Seqs
  import opened Query
  import opened Registry
  import opened Overlay

  // ---------------------------------------------------------------- getList

  /** The `sort` parameter of `getList`; absent fields default to
      `field = "id"` and `order = "asc"`. */
  datatype SortParams = SortParams(field: Option<string>, order: Option<string>)

  datatype ListParams = ListParams(sort: Option<SortParams>, filter: Filter, pagination: Option<Pagination>)

  function SortField(p: Option<SortParams>): string {
    if p.Some? && p.value.field.Some? then p.value.field.value else "id"
  }

  /** The order is compared with `"asc"` after lower-casing it. */
  function SortDirection(p: Option<SortParams>): Direction {
    var order := if p.Some? && p.value.order.Some? then p.value.order.value else "asc";
    if Lower(order) == "asc" then Asc else Desc
  }

  /** A page of records and the number of records before paging. */
  datatype Page = Page(data: seq<Record>, total: nat)

  /** A read's result together with the registry afterwards: the in-place
      sort of a mirror list outlives the call, even when the call throws. */
  datatype Listed = Listed(result: Result<Page>, mirror: Registry)

  /** The two groups of a Users list, split at `k`: exactly the principal's
      published records the filter keeps, then exactly the published
      template records the filter keeps and no own record answers, each
      tagged with its id as `questionId`. */
  ghost predicate OverlayGroups(data: seq<Record>, k: int, users: seq<Record>, templates: seq<Record>,
                                f: Filter, uid: string) {
    && 0 <= k <= |data|
    && (forall x :: x in data[..k] <==> x in users && Passes(x, f) && OwnPublished(x, uid))
    && (forall y :: y in data[k..] ==>
          exists t :: t in templates && Published(t) && Passes(t, f) && !Overlaid(t, data[..k]) && y == TagQuestion(t))
    && (forall t :: t in templates && Published(t) && Passes(t, f) && !Overlaid(t, data[..k]) ==>
          TagQuestion(t) in data[k..])
  }

  /** The merge of the filtered lists has the two overlay groups. */
  lemma MergeGroups(filtered: seq<Record>, tf: seq<Record>, users: seq<Record>, templates: seq<Record>,
                    f: Filter, uid: string)
    requires forall x :: x in filtered <==> x in users && Passes(x, f)
    requires forall t :: t in tf <==> t in templates && Passes(t, f)
    ensures var m := Merge(filtered, tf, uid);
      OverlayGroups(m.own + m.synthesized, |m.own|, users, templates, f, uid)
  {
    var m := Merge(filtered, tf, uid);
    var data := m.own + m.synthesized;
    assert data[..|m.own|] == m.own;
    assert data[|m.own|..] == m.synthesized;
  }

  /** The list `getList` pages through. For a Users resource it is the
      overlay merge of the filtered mirror list with the filtered fresh read
      of the template; otherwise it is the filtered mirror list. */
  function ListMatches(sorted: seq<Record>, src: SourceReads, who: Principal, name: string, f: Filter)
    : (r: Result<seq<Record>>)
    ensures FilterArray(sorted, f).Err? ==> r == Err(TypeError)
    ensures r.Ok? && !IsUsersFamily(name) ==> forall x :: x in r.value <==> x in sorted && Passes(x, f)
    ensures r.Ok? && !IsUsersFamily(name) ==> Subsequence(r.value, sorted)
    ensures IsUsersFamily(name) && FilterArray(sorted, f).Ok? && TemplateOf(name) !in src ==> r == Err(StoreFailure)
    ensures IsUsersFamily(name) && FilterArray(sorted, f).Ok? && TemplateOf(name) in src ==>
      && (r.Ok? <==> FilterArray(FreshRead(src, TemplateOf(name)).value, f).Ok?)
      && (r.Err? ==> r == Err(TypeError))
    ensures !IsUsersFamily(name) ==> (r.Ok? <==> FilterArray(sorted, f).Ok?)
    ensures r.Ok? && IsUsersFamily(name) ==>
      && TemplateOf(name) in src
      && exists k :: OverlayGroups(r.value, k, sorted, FreshRead(src, TemplateOf(name)).value, f, who.uid)
                    && Subsequence(r.value[..k], sorted)
                    && Subsequence(r.value[k..], Map(FreshRead(src, TemplateOf(name)).value, TagQuestion))
    ensures r.Ok? && IsUsersFamily(name) ==> forall x :: x in r.value ==> Published(x)
  {
    var filtered :- FilterArray(sorted, f);
    FilterMembers(sorted, f);
    if IsUsersFamily(name) then
      var templates :- FreshRead(src, TemplateOf(name));
      var templatesFiltered :- FilterArray(templates, f);
      FilterMembers(templates, f);
      var m := Merge(filtered, templatesFiltered, who.uid);
      MergePublishedNoDuplicate(filtered, templatesFiltered, who.uid);
      MergeGroups(filtered, templatesFiltered, sorted, templates, f, who.uid);
      assert (m.own + m.synthesized)[..|m.own|] == m.own;
      assert (m.own + m.synthesized)[|m.own|..] == m.synthesized;
      SubsequenceTrans(m.own, filtered, sorted);
      MapSubsequence(templatesFiltered, templates, TagQuestion);
      SubsequenceTrans(m.synthesized, Map(templatesFiltered, TagQuestion), Map(templates, TagQuestion));
      Ok(m.own + m.synthesized)
    else Ok(filtered)
  }

  /** One page of `all`, with `total` counting all of it. */
  function ListPage(all: seq<Record>, pg: Option<Pagination>): (r: Page)
    ensures r.total == |all|
    ensures pg.None? ==> r.data == all
    ensures forall x :: x in r.data ==> x in all
    ensures Subsequence(r.data, all)
    ensures pg.Some? && pg.value.perPage.Some? && pg.value.perPage.value >= 0 ==>
      |r.data| <= pg.value.perPage.value
  {
    var data := Paginate(all, pg);
    SubsequenceMembers(data, all);
    Page(data, |all|)
  }

  /** `apiGetList`. */
  function GetList(mirror: Registry, src: SourceReads, who: Principal, name: string, p: ListParams)
    : (out: Listed)
    ensures name !in mirror ==> out == Listed(Err(ResourceNotFound(name)), mirror)
    ensures out.mirror.Keys == mirror.Keys
    ensures forall n :: n in mirror && n != name ==> out.mirror[n] == mirror[n]
    ensures name in mirror ==> multiset(out.mirror[name]) == multiset(mirror[name])
    ensures name in mirror ==> forall i :: 0 < i < |out.mirror[name]| ==>
      !Before(SortDirection(p.sort), SortField(p.sort), out.mirror[name][i], out.mirror[name][i - 1])
    ensures name in mirror && FilterArray(out.mirror[name], p.filter).Err? ==> out.result == Err(TypeError)
    ensures name in mirror && !IsUsersFamily(name) ==>
      (out.result.Ok? <==> FilterArray(out.mirror[name], p.filter).Ok?)
    ensures name in mirror && IsUsersFamily(name) ==>
      (out.result.Ok? <==> && FilterArray(out.mirror[name], p.filter).Ok?
                           && TemplateOf(name) in src
                           && FilterArray(FreshRead(src, TemplateOf(name)).value, p.filter).Ok?)
    ensures name in mirror && IsUsersFamily(name) && TemplateOf(name) !in src ==>
      (FilterArray(out.mirror[name], p.filter).Ok? ==> out.result == Err(StoreFailure))
    ensures out.result.Ok? && p.pagination.None? ==> |out.result.value.data| == out.result.value.total
    ensures out.result.Ok? && p.pagination.Some? && p.pagination.value.perPage.Some?
            && p.pagination.value.perPage.value >= 0 ==>
      |out.result.value.data| <= p.pagination.value.perPage.value
    ensures out.result.Ok? && !IsUsersFamily(name) ==>
      forall x :: x in out.result.value.data ==> x in mirror[name]
    ensures out.result.Ok? && !IsUsersFamily(name) ==> Subsequence(out.result.value.data, out.mirror[name])
    ensures out.result.Ok? && IsUsersFamily(name) ==>
      forall x :: x in out.result.value.data ==> Published(x)
  {
    match TryGetResource(mirror, name)
    case Err(e) => Listed(Err(e), mirror)
    case Ok(list) =>
      var sorted := SortArray(list, SortField(p.sort), SortDirection(p.sort));
      PermutationMembers(sorted, list);
      var m := ListMatches(sorted, src, who, name, p.filter);
      var result := if m.Err? then Err(m.error) else Ok(ListPage(m.value, p.pagination));
      if m.Ok? && !IsUsersFamily(name) then
        SubsequenceTrans(ListPage(m.value, p.pagination).data, m.value, sorted);
        Listed(result, mirror[name := sorted])
      else
        Listed(result, mirror[name := sorted])
  }

  /** `total` is the length of the whole filtered (or merged) list, whatever
      page is asked for. */
  lemma GetListTotalIgnoresPagination(mirror: Registry, src: SourceReads, who: Principal, name: string,
                                      p: ListParams, pg: Option<Pagination>)
    ensures var a, b := GetList(mirror, src, who, name, p), GetList(mirror, src, who, name, p.(pagination := pg));
      && a.mirror == b.mirror
      && (a.result.Ok? <==> b.result.Ok?)
      && (a.result.Ok? ==> a.result.value.total == b.result.value.total)
  {
  }

  /** Asking for page `n` of `perPage` records returns the `n`-th window of
      the unpaged list, and the unpaged list's length as `total`. */
  lemma GetListPageIsWindow(mirror: Registry, src: SourceReads, who: Principal, name: string,
                            p: ListParams, n: nat, perPage: nat)
    requires n >= 1
    ensures var whole := GetList(mirror, src, who, name, p.(pagination := None)).result;
      var paged := GetList(mirror, src, who, name, p.(pagination := Some(Pagination(Some(n), Some(perPage))))).result;
      && (paged.Ok? <==> whole.Ok?)
      && (paged.Ok? ==> paged.value == Page(PageOf(whole.value.data, perPage, n), |whole.value.data|))
  {
    var pg := Some(Pagination(Some(n), Some(perPage)));
    if name in mirror {
      var sorted := SortArray(mirror[name], SortField(p.sort), SortDirection(p.sort));
      var m := ListMatches(sorted, src, who, name, p.filter);
      assert GetList(mirror, src, who, name, p.(pagination := None)).result
          == if m.Err? then Err(m.error) else Ok(ListPage(m.value, None));
      assert GetList(mirror, src, who, name, p.(pagination := pg)).result
          == if m.Err? then Err(m.error) else Ok(ListPage(m.value, pg));
    }
  }

  /** Whether a filter throws depends only on which records are in the list. */
  lemma ThrowsPermutation(a: seq<Record>, b: seq<Record>, f: Filter)
    requires multiset(a) == multiset(b)
    ensures Throws(a, f) <==> exists x, j :: x in b && 0 <= j < |f| && Bad(x, f[j])
  {
    PermutationMembers(a, b);
    if Throws(a, f) {
      var i, j :| 0 <= i < |a| && 0 <= j < |f| && Bad(a[i], f[j]);
      assert a[i] in b;
    }
    if exists x, j :: x in b && 0 <= j < |f| && Bad(x, f[j]) {
      var x, j :| x in b && 0 <= j < |f| && Bad(x, f[j]);
      var i :| 0 <= i < |a| && a[i] == x;
      assert Bad(a[i], f[j]);
    }
  }

  /** For a resource outside the Users family, without pagination, `getList`
      returns the mirror records the filter keeps, each as often as it
      occurs there, and throws exactly when some record meets a filter
      entry with a non-string value. */
  lemma GetListPlainIsFilteredMirror(mirror: Registry, src: SourceReads, who: Principal, name: string, p: ListParams)
    requires name in mirror && !IsUsersFamily(name) && p.pagination.None?
    ensures var out := GetList(mirror, src, who, name, p);
      out.result.Err? <==> !IsEmptyObj(p.filter) && exists x, j :: x in mirror[name] && 0 <= j < |p.filter| && Bad(x, p.filter[j])
    ensures var out := GetList(mirror, src, who, name, p);
      out.result.Ok? && IsEmptyObj(p.filter) ==> multiset(out.result.value.data) == multiset(mirror[name])
    ensures var out := GetList(mirror, src, who, name, p);
      out.result.Ok? && !IsEmptyObj(p.filter) ==>
        forall x :: multiset(out.result.value.data)[x] == if Kept(x, p.filter) then multiset(mirror[name])[x] else 0
    ensures var out := GetList(mirror, src, who, name, p);
      out.result.Ok? ==> Subsequence(out.result.value.data, SortArray(mirror[name], SortField(p.sort), SortDirection(p.sort)))
  {
    var sorted := SortArray(mirror[name], SortField(p.sort), SortDirection(p.sort));
    ThrowsPermutation(sorted, mirror[name], p.filter);
    assert GetList(mirror, src, who, name, p).result == (
      var m := FilterArray(sorted, p.filter);
      if m.Err? then Err(m.error) else Ok(ListPage(m.value, p.pagination)));
  }

  /** `x` is a published template record tagged with its id as `questionId`. */
  ghost predicate FromTemplate(x: Record, templates: seq<Record>) {
    exists t :: t in templates && Published(t) && x == TagQuestion(t)
  }

  /** No record of `own` carries the `questionId` of `x`. */
  predicate NotOverlaid(x: Record, own: seq<Record>) {
    forall o :: o in own ==> !StrictEquals(Field(o, "questionId"), Field(x, "questionId"))
  }

  /** The overlay shape of a Users list, split at `k`: first the principal's
      own published records, then tagged template records whose
      `questionId` no own record carries. */
  ghost predicate OverlayShapeAt(data: seq<Record>, k: int, users: seq<Record>, templates: seq<Record>, uid: string) {
    && 0 <= k <= |data|
    && (forall i :: 0 <= i < k ==> data[i] in users && OwnPublished(data[i], uid))
    && (forall i :: k <= i < |data| ==> FromTemplate(data[i], templates) && NotOverlaid(data[i], data[..k]))
  }

  /** The overlay merge has the overlay shape, split after the own records. */
  lemma MergeShape(users: seq<Record>, templates: seq<Record>, uid: string)
    ensures var m := Merge(users, templates, uid);
      OverlayShapeAt(m.own + m.synthesized, |m.own|, users, templates, uid)
  {
    var m := Merge(users, templates, uid);
    MergeSynthesizedShape(users, templates, uid);
    ShapeOfParts(m.own, m.synthesized, users, templates, uid);
  }

  /** Own records followed by synthesized ones form the overlay shape. */
  lemma ShapeOfParts(own: seq<Record>, synthesized: seq<Record>, users: seq<Record>, templates: seq<Record>, uid: string)
    requires forall x :: x in own ==> x in users && OwnPublished(x, uid)
    requires forall i :: 0 <= i < |synthesized| ==>
      FromTemplate(synthesized[i], templates) && NotOverlaid(synthesized[i], own)
    ensures OverlayShapeAt(own + synthesized, |own|, users, templates, uid)
  {
    var data := own + synthesized;
    var k := |own|;
    assert data[..k] == own;
    forall i | 0 <= i < k
      ensures data[i] in users && OwnPublished(data[i], uid)
    {
      assert data[i] in own;
    }
    forall i | k <= i < |data|
      ensures FromTemplate(data[i], templates) && NotOverlaid(data[i], own)
    {
      assert data[i] == synthesized[i - k];
    }
  }

  /** Every synthesized record comes from a published template record and
      carries a `questionId` no own record carries. */
  lemma MergeSynthesizedShape(users: seq<Record>, templates: seq<Record>, uid: string)
    ensures var m := Merge(users, templates, uid);
      forall i :: 0 <= i < |m.synthesized| ==>
        FromTemplate(m.synthesized[i], templates) && NotOverlaid(m.synthesized[i], m.own)
  {
    var m := Merge(users, templates, uid);
    MergePublishedNoDuplicate(users, templates, uid);
    forall i | 0 <= i < |m.synthesized|
      ensures FromTemplate(m.synthesized[i], templates) && NotOverlaid(m.synthesized[i], m.own)
    {
      assert m.synthesized[i] in m.synthesized;
    }
  }

  /** A shape over sub-lists is a shape over the lists they come from. */
  lemma OverlayShapeWiden(data: seq<Record>, k: int, users: seq<Record>, users': seq<Record>,
                          templates: seq<Record>, templates': seq<Record>, uid: string)
    requires OverlayShapeAt(data, k, users, templates, uid)
    requires forall x :: x in users ==> x in users'
    requires forall x :: x in templates ==> x in templates'
    ensures OverlayShapeAt(data, k, users', templates', uid)
  {
    forall i | k <= i < |data|
      ensures FromTemplate(data[i], templates')
    {
      assert FromTemplate(data[i], templates);
      var t :| t in templates && Published(t) && data[i] == TagQuestion(t);
      assert t in templates';
    }
  }

  /** For a Users resource, without pagination, a successful `getList`
      reads the template collection and returns the overlay of the mirror
      list and that read: first exactly the principal's published records the
      filter keeps, then exactly the kept published template records none of
      them answers, tagged, and no `questionId` twice across the groups. */
  lemma GetListOverlay(mirror: Registry, src: SourceReads, who: Principal, name: string, p: ListParams)
    requires name in mirror && IsUsersFamily(name) && p.pagination.None?
    requires FilterArray(mirror[name], p.filter).Ok?
    requires TemplateOf(name) in src && FilterArray(FreshRead(src, TemplateOf(name)).value, p.filter).Ok?
    ensures GetList(mirror, src, who, name, p).result.Ok?
    ensures TemplateOf(name) in src
    ensures exists k :: OverlayShapeAt(GetList(mirror, src, who, name, p).result.value.data, k, mirror[name],
                                       FreshRead(src, TemplateOf(name)).value, who.uid)
    ensures var out := GetList(mirror, src, who, name, p);
      exists k :: && OverlayGroups(out.result.value.data, k, mirror[name],
                                   FreshRead(src, TemplateOf(name)).value, p.filter, who.uid)
                  && Subsequence(out.result.value.data[..k], out.mirror[name])
                  && Subsequence(out.result.value.data[k..], Map(FreshRead(src, TemplateOf(name)).value, TagQuestion))
  {
    var sorted := SortArray(mirror[name], SortField(p.sort), SortDirection(p.sort));
    PermutationMembers(sorted, mirror[name]);
    ThrowsPermutation(sorted, mirror[name], p.filter);
    ThrowsPermutation(mirror[name], mirror[name], p.filter);
    var filtered := FilterArray(sorted, p.filter).value;
    var templates := FreshRead(src, TemplateOf(name)).value;
    var tf := FilterArray(templates, p.filter).value;
    var m := Merge(filtered, tf, who.uid);
    var data := GetList(mirror, src, who, name, p).result.value.data;
    assert data == m.own + m.synthesized;
    MergeShape(filtered, tf, who.uid);
    SubsequenceMembers(filtered, sorted);
    SubsequenceMembers(tf, templates);
    OverlayShapeWiden(data, |m.own|, filtered, mirror[name], tf, templates, who.uid);
    FilterMembers(sorted, p.filter);
    FilterMembers(templates, p.filter);
    MergeGroups(filtered, tf, mirror[name], templates, p.filter, who.uid);
    assert data[..|m.own|] == m.own;
    assert data[|m.own|..] == m.synthesized;
    SubsequenceTrans(m.own, filtered, sorted);
    MapSubsequence(tf, templates, TagQuestion);
    SubsequenceTrans(m.synthesized, Map(tf, TagQuestion), Map(templates, TagQuestion));
    assert GetList(mirror, src, who, name, p).mirror[name] == sorted;
  }

  // ----------------------------------------------------------------- getOne

  /** `val.id === id`, as a predicate to filter with. */
  function ById(id: Option<string>): Record -> bool {
    (x: Record) => HasId(x, id)
  }

  /** `{ ...doc, id: params.id }`; an `undefined` id leaves no id. */
  function WithId(r: Record, id: Option<string>): (out: Record)
    ensures HasId(out, id)
    ensures forall k :: k != "id" ==> Field(out, k) == Field(r, k)
  {
    match id
    case None => r - {"id"}
    case Some(s) => r["id" := Str(s)]
  }

  /** `!params.id`: no id, or the empty string. */
  predicate NoIdGiven(id: Option<string>) {
    !Truthy(OptStr(id))
  }

  /** `filter(p).pop()`, with an empty selection reported as `NotFound`. */
  function LastOf(s: seq<Record>, p: Record -> bool): (r: Result<Record>)
    ensures r.Err? <==> forall x :: x in s ==> !p(x)
    ensures r.Err? ==> r.error == NotFound
    ensures r.Ok? ==> IsLastMatch(s, p, r.value)
  {
    var hits := Select(s, p);
    SelectEmpty(s, p);
    if |hits| == 0 then Err(NotFound)
    else
      LastOfSelect(s, p);
      Ok(hits[|hits| - 1])
  }

  /** `apiGetOne`: the LAST matching record, or `NotFound`. */
  function GetOne(mirror: Registry, src: SourceReads, who: Principal, name: string, id: Option<string>)
    : (r: Result<Record>)
    // Users family: the fresh Users read wins; on a miss the template record, tagged.
    ensures IsUsersFamily(name) && name !in src ==> r == Err(StoreFailure)
    ensures IsUsersFamily(name) && name in src && LastOf(FreshRead(src, name).value, ById(id)).Ok? ==>
      r.Ok? && IsLastMatch(FreshRead(src, name).value, ById(id), r.value)
    ensures IsUsersFamily(name) && name in src && LastOf(FreshRead(src, name).value, ById(id)).Err? ==>
      if TemplateOf(name) !in src then r == Err(StoreFailure)
      else match LastOf(FreshRead(src, TemplateOf(name)).value, ById(id))
        case Err(_) => r == Err(NotFound)
        case Ok(t) => r == Ok(TagQuestion(t))
    // `users` with no id: the principal's own record from the mirror.
    ensures !IsUsersFamily(name) && name == "users" && NoIdGiven(id) ==>
      if "users" !in mirror then r == Err(ResourceNotFound("users"))
      else r == LastOf(mirror["users"], ById(Some(who.uid)))
    // `profile`: the principal's `users` record, under the requested id.
    ensures name == "profile" ==>
      if "users" !in src then r == Err(StoreFailure)
      else match LastOf(FreshRead(src, "users").value, ById(Some(who.uid)))
        case Err(_) => r == Err(NotFound)
        case Ok(u) => r == Ok(WithId(u, id))
    // Any other resource: the mirror record with that id.
    ensures !IsUsersFamily(name) && !(name == "users" && NoIdGiven(id)) && name != "profile" ==>
      if name !in mirror then r == Err(ResourceNotFound(name))
      else r == LastOf(mirror[name], ById(id))
  {
    if IsUsersFamily(name) then
      var users :- FreshRead(src, name);
      match LastOf(users, ById(id))
      case Ok(u) => Ok(u)
      case Err(_) =>
        var templates :- FreshRead(src, TemplateOf(name));
        var t :- LastOf(templates, ById(id));
        Ok(TagQuestion(t))
    else if name == "users" && NoIdGiven(id) then
      var list :- TryGetResource(mirror, "users");
      LastOf(list, ById(Some(who.uid)))
    else if name == "profile" then
      var users :- FreshRead(src, "users");
      var u :- LastOf(users, ById(Some(who.uid)));
      Ok(WithId(u, id))
    else
      var list :- TryGetResource(mirror, name);
      LastOf(list, ById(id))
  }

  /** Outside the Users family and the `profile` view, `getOne` finds a
      record exactly when the list holds one with the requested id (the
      principal's uid for `users` without an id), and the record it returns
      carries that id. */
  lemma GetOneFindsId(mirror: Registry, src: SourceReads, who: Principal, name: string, id: Option<string>)
    requires !IsUsersFamily(name) && name != "profile" && name in mirror
    ensures var want := if name == "users" && NoIdGiven(id) then Some(who.uid) else id;
      var r := GetOne(mirror, src, who, name, id);
      && (r.Ok? <==> exists x :: x in mirror[name] && HasId(x, want))
      && (r.Ok? ==> r.value in mirror[name] && HasId(r.value, want))
  {
    var want := if name == "users" && NoIdGiven(id) then Some(who.uid) else id;
    var r := LastOf(mirror[name], ById(want));
    if r.Ok? {
      var i :| LastMatchAt(mirror[name], ById(want), i) && mirror[name][i] == r.value;
    }
  }

  // ---------------------------------------------------------------- getMany

  /** `ids.has(item["id"])` for a set built from string ids. */
  function IdIn(ids: seq<string>): Record -> bool {
    (r: Record) => "id" in r && r["id"].Str? && r["id"].s in ids
  }

  /** `apiGetMany`: the records whose id is requested, in list order. A Users
      resource reads its collection fresh and falls back to the template
      collection only when no Users record matches. */
  function GetMany(mirror: Registry, src: SourceReads, name: string, ids: seq<string>): (r: Result<seq<Record>>)
    ensures IsUsersFamily(name) && name !in src ==> r == Err(StoreFailure)
    ensures IsUsersFamily(name) && name in src ==>
      var users := FreshRead(src, name).value;
      if exists x :: x in users && IdIn(ids)(x) then
        r.Ok? && Subsequence(r.value, users) && forall x :: x in r.value <==> x in users && IdIn(ids)(x)
      else if TemplateOf(name) !in src then r == Err(StoreFailure)
      else
        var templates := FreshRead(src, TemplateOf(name)).value;
        r.Ok? && Subsequence(r.value, templates) && forall x :: x in r.value <==> x in templates && IdIn(ids)(x)
    ensures !IsUsersFamily(name) && name !in mirror ==> r == Err(ResourceNotFound(name))
    ensures !IsUsersFamily(name) && name in mirror ==>
      r.Ok? && Subsequence(r.value, mirror[name]) && forall x :: x in r.value <==> x in mirror[name] && IdIn(ids)(x)
  {
    if IsUsersFamily(name) then
      var users :- FreshRead(src, name);
      var matches := Select(users, IdIn(ids));
      SelectEmpty(users, IdIn(ids));
      if |matches| >= 1 then Ok(matches)
      else
        var templates :- FreshRead(src, TemplateOf(name));
        Ok(Select(templates, IdIn(ids)))
    else
      var list :- TryGetResource(mirror, name);
      Ok(Select(list, IdIn(ids)))
  }

  // ------------------------------------------------------- getManyReference

  /** The `sort` parameter of `getManyReference`; only `"ASC"` sorts `asc`. */
  datatype ReferenceSort = ReferenceSort(field: string, order: string)

  datatype ReferenceParams = ReferenceParams(target: string, id: Value, sort: Option<ReferenceSort>,
                                             page: int, perPage: int)

  /** `val[target] === id`, as a predicate to filter with. */
  function Targets(target: string, v: Value): Record -> bool {
    (r: Record) => StrictEquals(Field(r, target), Some(v))
  }

  /** The list `data` the matches were taken from, and the matches. */
  datatype Source = Source(data: seq<Record>, matches: seq<Record>)

  /** Where `getManyReference` takes its matches from: the mirror list of a
      plain resource; for a Users resource a fresh read of the Users
      collection, or of the template collection when no Users record matches. */
  function ReferenceSource(mirror: Registry, src: SourceReads, name: string, target: string, v: Value)
    : (r: Result<Source>)
    ensures r.Ok? ==> r.value.matches == Select(r.value.data, Targets(target, v))
    ensures IsUsersFamily(name) && name !in src ==> r == Err(StoreFailure)
    ensures IsUsersFamily(name) && name in src ==>
      var users := FreshRead(src, name).value;
      if exists x :: x in users && Targets(target, v)(x) then r.Ok? && r.value.data == users
      else if TemplateOf(name) !in src then r == Err(StoreFailure)
      else r.Ok? && r.value.data == FreshRead(src, TemplateOf(name)).value
    ensures !IsUsersFamily(name) ==> (r.Ok? <==> name in mirror)
    ensures !IsUsersFamily(name) && r.Ok? ==> r.value.data == mirror[name]
    ensures !IsUsersFamily(name) && r.Err? ==> r.error == ResourceNotFound(name)
  {
    var hit := Targets(target, v);
    if IsUsersFamily(name) then
      var users :- FreshRead(src, name);
      var matches := Select(users, hit);
      SelectEmpty(users, hit);
      if |matches| < 1 then
        var templates :- FreshRead(src, TemplateOf(name));
        Ok(Source(templates, Select(templates, hit)))
      else Ok(Source(users, matches))
    else
      var list :- TryGetResource(mirror, name);
      Ok(Source(list, Select(list, hit)))
  }

  /** The page `slice((page - 1) * perPage, (page - 1) * perPage + perPage)`
      of the matches: the same slice `getList` takes. */
  function ReferencePage(s: Source, target: string, v: Value, page: int, perPage: int): (r: Page)
    requires s.matches == Select(s.data, Targets(target, v))
    ensures r.total == |s.matches|
    ensures forall x :: x in r.data ==> Targets(target, v)(x)
    ensures perPage >= 0 ==> |r.data| <= perPage
    ensures page >= 1 && perPage >= 0 ==> r.data == Window(s.matches, perPage, page)
    ensures Subsequence(r.data, s.data)
  {
    var data := Paginate(s.matches, Some(Pagination(Some(page), Some(perPage))));
    SubsequenceMembers(data, s.matches);
    SubsequenceTrans(data, s.matches, s.data);
    assert page >= 1 && perPage >= 0 ==> data == PageOf(s.matches, perPage, page);
    Page(data, |s.matches|)
  }

  /** The mirror after the call: for a resource outside the Users family
      with a sort given, its list sorted in place. */
  function ReferenceMirror(mirror: Registry, name: string, q: ReferenceParams): (r: Registry)
    requires name in mirror
    ensures r.Keys == mirror.Keys
    ensures forall n :: n in mirror && n != name ==> r[n] == mirror[n]
    ensures multiset(r[name]) == multiset(mirror[name])
    ensures q.sort.None? ==> r == mirror
    ensures q.sort.Some? ==>
      var dir := if q.sort.value.order == "ASC" then Asc else Desc;
      forall i :: 0 < i < |r[name]| ==> !Before(dir, q.sort.value.field, r[name][i], r[name][i - 1])
  {
    match q.sort
    case None => mirror
    case Some(s) =>
      var dir := if s.order == "ASC" then Asc else Desc;
      mirror[name := SortArray(mirror[name], s.field, dir)]
  }

  /** `apiGetManyReference`. The sort is applied to `data` after the matches
      were taken, so it reorders the mirror list (for a resource outside the
      Users family) but never the returned page. */
  function GetManyReference(mirror: Registry, src: SourceReads, name: string, q: ReferenceParams): (out: Listed)
    ensures IsUsersFamily(name) || name !in mirror ==> out.mirror == mirror
    ensures !IsUsersFamily(name) && name in mirror ==> out.mirror == ReferenceMirror(mirror, name, q)
    ensures !IsUsersFamily(name) && name !in mirror ==> out.result == Err(ResourceNotFound(name))
    ensures !IsUsersFamily(name) && name in mirror ==> out.result.Ok?
    // Every resource: an error exactly when the source read fails; otherwise
    // `total` counts the matches and the page is getList's window over them.
    ensures out.result.Err? <==> ReferenceSource(mirror, src, name, q.target, q.id).Err?
    ensures out.result.Err? ==> out.result.error == ReferenceSource(mirror, src, name, q.target, q.id).error
    ensures out.result.Ok? ==>
      var matches := ReferenceSource(mirror, src, name, q.target, q.id).value.matches;
      && out.result.value.total == |matches|
      && (q.page >= 1 && q.perPage >= 0 ==> out.result.value.data == Window(matches, q.perPage, q.page))
    ensures out.result.Ok? ==> forall x :: x in out.result.value.data ==> Targets(q.target, q.id)(x)
    ensures out.result.Ok? && q.perPage >= 0 ==> |out.result.value.data| <= q.perPage
    // Users family: the fresh Users read when some record there matches, the template read otherwise.
    ensures IsUsersFamily(name) && out.result.Ok? ==>
      var users := FreshRead(src, name).value;
      var hits := Select(users, Targets(q.target, q.id));
      if |hits| > 0 then out.result.value.total == |hits| && Subsequence(out.result.value.data, users)
      else
        var templates := FreshRead(src, TemplateOf(name)).value;
        out.result.value.total == |Select(templates, Targets(q.target, q.id))|
        && Subsequence(out.result.value.data, templates)
    ensures out.result.Ok? && !IsUsersFamily(name) ==> Subsequence(out.result.value.data, mirror[name])
    ensures out.result.Ok? && !IsUsersFamily(name) ==>
      var matches := Select(mirror[name], Targets(q.target, q.id));
      && out.result.value.total == |matches|
      && (q.page >= 1 && q.perPage >= 0 ==> out.result.value.data == Window(matches, q.perPage, q.page))
  {
    match ReferenceSource(mirror, src, name, q.target, q.id)
    case Err(e) => Listed(Err(e), mirror)
    case Ok(source) =>
      var mirror' := if IsUsersFamily(name) then mirror else ReferenceMirror(mirror, name, q);
      Listed(Ok(ReferencePage(source, q.target, q.id, q.page, q.perPage)), mirror')
  }

  /** The `sort` parameter never changes the returned page or total. */
  lemma GetManyReferenceSortIgnored(mirror: Registry, src: SourceReads, name: string, q: ReferenceParams,
                                    s: Option<ReferenceSort>)
    ensures GetManyReference(mirror, src, name, q).result == GetManyReference(mirror, src, name, q.(sort := s)).result
  {
  }
}

=== FILE: registry.dfy ===
/**
 * The resource registry of `FirebaseClient`: one in-memory list per
 * resource name, registered by `initPath` and replaced wholesale by
 * `setList` whenever the collection's subscription delivers a snapshot.
 */
module Registry {
  import opened Outcomes
  import opened Values
  import opened Seqs

  /** Resource name to the resource's current list of records. */
  type Registry = map<string, seq<Record>>

  /** `initPath(name)` as seen from the registry: a name seen before keeps
      its list; a new name is registered with an empty list (the first
      snapshot arrives later through `SetList`). */
  function InitPath(reg: Registry, name: string): (r: Registry)
    ensures r.Keys == reg.Keys + {name}
    ensures forall n :: n in reg ==> r[n] == reg[n]
    ensures name !in reg ==> r[name] == []
  {
    if name in reg then reg else reg[name := []]
  }

  /** Calling `initPath` again changes nothing. */
  lemma InitPathIdempotent(reg: Registry, name: string)
    ensures InitPath(InitPath(reg, name), name) == InitPath(reg, name)
  {
  }

  /** `tryGetResource(name)`: the registered list, or `ResourceNotFound`. */
  function TryGetResource(reg: Registry, name: string): (r: Result<seq<Record>>)
    ensures r.Ok? <==> name in reg
    ensures r.Ok? ==> r.value == reg[name]
    ensures r.Err? ==> r.error == ResourceNotFound(name)
  {
    if name in reg then Ok(reg[name]) else Err(ResourceNotFound(name))
  }

  /** After `initPath` the lookup of that name always succeeds. */
  lemma InitPathThenLookup(reg: Registry, name: string)
    ensures TryGetResource(InitPath(reg, name), name).Ok?
  {
  }

  /** `setList(newList, name)`: replaces the whole list of a registered
      resource and nothing else; an unregistered name is rejected. */
  function SetList(reg: Registry, name: string, list: seq<Record>): (r: Result<Registry>)
    ensures r.Err? <==> name !in reg
    ensures r.Err? ==> r.error == ResourceNotFound(name)
    ensures r.Ok? ==> r.value.Keys == reg.Keys && r.value[name] == list
    ensures r.Ok? ==> forall n :: n in reg && n != name ==> r.value[n] == reg[n]
  {
    var _ :- TryGetResource(reg, name);
    Ok(reg[name := list])
  }

  /** Converts one stored value: timestamps become their ISO text. */
  function ParseValue(v: Value): (r: Value)
    ensures !r.Timestamp?
    ensures !v.Timestamp? ==> r == v
  {
    if v.Timestamp? then Str(v.iso) else v
  }

  /** `parseFireStoreDocument(doc)`: `{ id: doc.id, ...data }` with every
      timestamp field converted to its ISO text. A stored `id` field
      overrides the document key. */
  function ParseDocument(doc: Document): (r: Record)
    ensures r.Keys == doc.fields.Keys + {"id"}
    ensures "id" !in doc.fields ==> r["id"] == Str(doc.key)
    ensures forall k :: k in doc.fields ==> r[k] == ParseValue(doc.fields[k])
    ensures forall k :: k in r ==> !r[k].Timestamp?
  {
    var data := map k | k in doc.fields :: ParseValue(doc.fields[k]);
    map["id" := Str(doc.key)] + data
  }

  /** A record as `getFirebaseSource` returns it: `{ id: doc.id, ...data }`
      with no timestamp conversion. */
  function SourceRecord(doc: Document): (r: Record)
    ensures r.Keys == doc.fields.Keys + {"id"}
    ensures "id" !in doc.fields ==> r["id"] == Str(doc.key)
    ensures forall k :: k in doc.fields ==> r[k] == doc.fields[k]
  {
    map["id" := Str(doc.key)] + doc.fields
  }

  /** A snapshot delivery: the subscription callback parses every document
      and calls `setList`. */
  function Deliver(reg: Registry, name: string, docs: seq<Document>): (r: Result<Registry>)
    ensures r.Ok? <==> name in reg
    ensures r.Ok? ==> r.value.Keys == reg.Keys
    ensures r.Ok? ==> |r.value[name]| == |docs|
    ensures r.Ok? ==> forall i :: 0 <= i < |docs| ==> r.value[name][i] == ParseDocument(docs[i])
    ensures r.Ok? ==> forall n :: n in reg && n != name ==> r.value[n] == reg[n]
  {
    SetList(reg, name, Map(docs, ParseDocument))
  }

  /** The first snapshot after `initPath` always lands, and a record of the
      resulting list never holds a timestamp object. */
  lemma InitThenDeliver(reg: Registry, name: string, docs: seq<Document>)
    ensures Deliver(InitPath(reg, name), name, docs).Ok?
    ensures forall i, k :: 0 <= i < |docs| && k in Deliver(InitPath(reg, name), name, docs).value[name][i] ==>
      !Deliver(InitPath(reg, name), name, docs).value[name][i][k].Timestamp?
  {
  }

  /** Fresh reads (`getFirebaseSource`) of whole collections, in snapshot
      order; a collection absent from the map is a read that was rejected. */
  type SourceReads = map<string, seq<Document>>

  /** `getFirebaseSource(collection)`. */
  function FreshRead(src: SourceReads, collection: string): (r: Result<seq<Record>>)
    ensures r.Ok? <==> collection in src
    ensures r.Err? ==> r.error == StoreFailure
    ensures r.Ok? ==> |r.value| == |src[collection]|
    ensures r.Ok? ==> forall i :: 0 <= i < |r.value| ==> r.value[i] == SourceRecord(src[collection][i])
  {
    if collection in src then Ok(Map(src[collection], SourceRecord)) else Err(StoreFailure)
  }
}

=== FILE: scenarios.dfy ===
/**
 * Properties that span several operations: a write, the snapshot that
 * brings it into the registry, and a later read; the overlay example; and
 * the registration `initPath` performs before every operation.
 */
module Scenarios {
  import opened Outcomes
  import opened Text
  import opened Values
  import opened Seqs
  import opened Query
  import opened Registry
  import opened DocStore
  import opened Overlay
  import opened ReadApi
  import opened WriteApi

  /** The commit time of each server-timestamp field of one document. */
  function At(when: (string, string) -> string, key: string): string -> string {
    (f: string) => when(key, f)
  }

  /** `docs` lists exactly the documents of collection `c`, as the
      collection's subscription delivers them after the writes have landed:
      each sentinel resolved to its commit time `when(key, field)`. */
  ghost predicate Snapshot(st: Store, c: string, docs: seq<Document>, when: (string, string) -> string) {
    && (forall i :: 0 <= i < |docs| ==>
          Lookup(st, c, docs[i].key).Some? && docs[i].fields == Resolve(Lookup(st, c, docs[i].key).value, At(when, docs[i].key)))
    && (forall k :: Lookup(st, c, k).Some? ==> exists i :: 0 <= i < |docs| && docs[i].key == k)
  }

  /** No stored document of `c` has an `id` field, so every parsed record's
      id is its document key. */
  ghost predicate KeyedById(st: Store, c: string) {
    forall k :: Lookup(st, c, k).Some? ==> "id" !in Lookup(st, c, k).value
  }

  /** A parsed snapshot record whose document has no `id` field is found by
      its key only. */
  lemma ParsedId(st: Store, c: string, docs: seq<Document>, when: (string, string) -> string, i: int, id: string)
    requires Snapshot(st, c, docs, when) && KeyedById(st, c) && 0 <= i < |docs|
    ensures HasId(ParseDocument(docs[i]), Some(id)) <==> docs[i].key == id
  {
    assert "id" !in docs[i].fields;
  }

  /** Creating a record with `myId: "ABC"` on a plain resource stores it
      under `"abc"` with the principal's provenance, and once the snapshot
      arrives `getOne("abc")` returns exactly that record, its
      server-timestamp fields read back as the commit time's ISO text. */
  lemma CreateThenGetOne(mirror: Registry, src: SourceReads, st: Store, keys: nat -> string, who: Principal,
                         name: string, data: Record, docs: seq<Document>, when: (string, string) -> string)
    requires name in mirror && !IsUsersFamily(name) && name != "profile"
    requires "myId" in data && data["myId"].Str? && data["myId"].s != ""
    requires "id" !in data && KeyedById(st, name)
    requires Snapshot(Create(mirror, st, keys, who, name, data).store, name, docs, when)
    ensures var key := Lower(data["myId"].s);
      var stored := (data - {"myId"}) + CreateStamps(who);
      var got := GetOne(Deliver(mirror, name, docs).value, src, who, name, Some(key));
      && Lookup(Create(mirror, st, keys, who, name, data).store, name, key) == Some(stored)
      && got == Ok(ParseDocument(Document(key, Resolve(stored, At(when, key)))))
      && got.value["id"] == Str(key)
      && got.value["createdByUid"] == Str(who.uid) && got.value["createdByEmail"] == Str(who.email)
      && got.value["createdate"] == Str(when(key, "createdate"))
      && got.value["lastupdate"] == Str(when(key, "lastupdate"))
  {
    var key := Lower(data["myId"].s);
    var stored := (data - {"myId"}) + CreateStamps(who);
    CreateStampsProvenance(data - {"myId"}, who);
    var st' := Create(mirror, st, keys, who, name, data).store;
    CreateKeepsKeyedById(mirror, st, keys, who, name, data);
    var reg := Deliver(mirror, name, docs).value;
    FoundInSnapshot(st', name, docs, when, reg[name], key, stored);
    GetOneById(reg, src, who, name, key);
    CreatedReadsBack(data - {"myId"}, who, when, key);
  }

  /** The parsed snapshot record of a created document: its key as `id`,
      the principal's provenance, and each creation time as ISO text. */
  lemma CreatedReadsBack(data: Record, who: Principal, when: (string, string) -> string, key: string)
    requires "id" !in data
    ensures var rec := ParseDocument(Document(key, Resolve(data + CreateStamps(who), At(when, key))));
      && rec["id"] == Str(key)
      && rec["createdByUid"] == Str(who.uid) && rec["createdByEmail"] == Str(who.email)
      && rec["createdate"] == Str(when(key, "createdate"))
      && rec["lastupdate"] == Str(when(key, "lastupdate"))
  {
    var stored := data + CreateStamps(who);
    CreateStampsProvenance(data, who);
    var fields := Resolve(stored, At(when, key));
    assert fields["createdate"] == Timestamp(when(key, "createdate"));
    assert fields["lastupdate"] == Timestamp(when(key, "lastupdate"));
  }

  /** On a plain resource, `getOne` with a non-empty id is the last mirror record with that id. */
  lemma GetOneById(mirror: Registry, src: SourceReads, who: Principal, name: string, id: string)
    requires name in mirror && !IsUsersFamily(name) && name != "profile" && id != ""
    ensures GetOne(mirror, src, who, name, Some(id)) == LastOf(mirror[name], ById(Some(id)))
  {
    assert !NoIdGiven(Some(id));
  }

  /** A create with a string `myId` and no `id` field keeps every stored
      document of the resource free of an `id` field. */
  lemma CreateKeepsKeyedById(mirror: Registry, st: Store, keys: nat -> string, who: Principal,
                             name: string, data: Record)
    requires name in mirror && "myId" in data && data["myId"].Str? && data["myId"].s != ""
    requires "id" !in data && KeyedById(st, name)
    ensures KeyedById(Create(mirror, st, keys, who, name, data).store, name)
  {
    var key := Lower(data["myId"].s);
    var st' := Create(mirror, st, keys, who, name, data).store;
    forall k | Lookup(st', name, k).Some?
      ensures "id" !in Lookup(st', name, k).value
    {
      if k != key {
        assert Lookup(st', name, k) == Lookup(st, name, k);
      }
    }
  }

  /** Once the snapshot of `c` is parsed, the last record with id `key` is
      the parsed document stored under `key`. */
  lemma FoundInSnapshot(st: Store, c: string, docs: seq<Document>, when: (string, string) -> string,
                         list: seq<Record>, key: string, stored: Record)
    requires Snapshot(st, c, docs, when) && KeyedById(st, c) && Lookup(st, c, key) == Some(stored)
    requires |list| == |docs| && forall i :: 0 <= i < |docs| ==> list[i] == ParseDocument(docs[i])
    ensures LastOf(list, ById(Some(key))) == Ok(ParseDocument(Document(key, Resolve(stored, At(when, key)))))
  {
    var r := LastOf(list, ById(Some(key)));
    var i :| 0 <= i < |docs| && docs[i].key == key;
    ParsedId(st, c, docs, when, i, key);
    assert ById(Some(key))(list[i]);
    var j :| LastMatchAt(list, ById(Some(key)), j) && list[j] == r.value;
    ParsedId(st, c, docs, when, j, key);
    assert docs[j] == Document(key, Resolve(stored, At(when, key)));
  }

  /** After `deleteMany(ids)` and the snapshot that follows, `getList` on a
      plain resource returns no record with any of those ids. */
  lemma DeleteManyThenList(mirror: Registry, src: SourceReads, st: Store, who: Principal, name: string,
                           ids: seq<string>, docs: seq<Document>, when: (string, string) -> string, p: ListParams)
    requires name in mirror && !IsUsersFamily(name) && KeyedById(st, name)
    requires Snapshot(DeleteMany(mirror, st, name, ids).store, name, docs, when)
    ensures var out := GetList(Deliver(mirror, name, docs).value, src, who, name, p);
      out.result.Ok? ==> forall x, id :: x in out.result.value.data && id in ids ==> !HasId(x, Some(id))
  {
    var st' := DeleteMany(mirror, st, name, ids).store;
    assert KeyedById(st', name);
    var reg := Deliver(mirror, name, docs).value;
    NoneLeftInSnapshot(st', name, docs, when, reg[name], ids);
  }

  /** When no document of `c` is stored under any of `ids`, no record of the
      parsed snapshot has one of those ids. */
  lemma NoneLeftInSnapshot(st: Store, c: string, docs: seq<Document>, when: (string, string) -> string,
                            list: seq<Record>, ids: seq<string>)
    requires Snapshot(st, c, docs, when) && KeyedById(st, c)
    requires forall id :: id in ids ==> Lookup(st, c, id).None?
    requires |list| == |docs| && forall i :: 0 <= i < |docs| ==> list[i] == ParseDocument(docs[i])
    ensures forall x, id :: x in list && id in ids ==> !HasId(x, Some(id))
  {
    forall x, id | x in list && id in ids
      ensures !HasId(x, Some(id))
    {
      var i :| 0 <= i < |docs| && list[i] == x;
      ParsedId(st, c, docs, when, i, id);
      assert Lookup(st, c, docs[i].key).Some?;
    }
  }

  // ------------------------------------------------------ the overlay example

  /** The published template record `t1` of the example. */
  function TemplateT1(): Document {
    Document("t1", map["published" := Bool(true)])
  }

  /** The principal's Users record answering `t1`. */
  function AnswerT1(uid: string): Record {
    map["id" := Str("u1"), "questionId" := Str("t1"), "createdByUid" := Str(uid), "published" := Bool(true)]
  }

  /** Reads of the template collection `analysisData` holding only `t1`. */
  function TemplateReads(): SourceReads {
    map["analysisData" := [TemplateT1()]]
  }

  /** The template of `analysisDataUsers` is `analysisData`. */
  lemma DataTemplate()
    ensures TemplateOf("analysisDataUsers") == "analysisData"
  {
    TemplateOfSuffix("analysisData");
    assert "analysisData" + "Users" == "analysisDataUsers";
  }

  lemma TemplateRead()
    ensures FreshRead(TemplateReads(), "analysisData") == Ok([map["id" := Str("t1"), "published" := Bool(true)]])
  {
    var r := FreshRead(TemplateReads(), "analysisData").value;
    assert TemplateReads()["analysisData"] == [TemplateT1()];
    var t := SourceRecord(TemplateT1());
    assert t.Keys == {"id", "published"};
    assert t == map["id" := Str("t1"), "published" := Bool(true)];
    assert |r| == 1 && r[0] == t;
    assert r == [t];
  }

  /** With no Users record yet, `getList` synthesizes one record for `t1`,
      tagged `questionId: "t1"`. */
  lemma OverlaySynthesizes(who: Principal)
    ensures var out := GetList(map["analysisDataUsers" := []], TemplateReads(), who, "analysisDataUsers",
                               ListParams(None, [], None));
      out.result == Ok(Page([map["id" := Str("t1"), "published" := Bool(true), "questionId" := Str("t1")]], 1))
  {
    var sorted := SortArray([], "id", Asc);
    assert sorted == [];
    UnansweredMatches(who);
  }

  lemma UnansweredMatches(who: Principal)
    ensures ListMatches([], TemplateReads(), who, "analysisDataUsers", [])
         == Ok([map["id" := Str("t1"), "published" := Bool(true), "questionId" := Str("t1")]])
  {
    var t := map["id" := Str("t1"), "published" := Bool(true)];
    ExampleTemplates();
    assert FilterArray([], []) == Ok([]);
    UsersMatches([], TemplateReads(), who, "analysisDataUsers", [], [], [t], [t]);
    MergeUnanswered(who.uid);
  }

  /** The template read of the example, filtered by the empty filter. */
  lemma ExampleTemplates()
    ensures IsUsersFamily("analysisDataUsers")
    ensures FreshRead(TemplateReads(), TemplateOf("analysisDataUsers"))
         == Ok([map["id" := Str("t1"), "published" := Bool(true)]])
    ensures FilterArray([map["id" := Str("t1"), "published" := Bool(true)]], [])
         == Ok([map["id" := Str("t1"), "published" := Bool(true)]])
  {
    DataTemplate();
    TemplateRead();
  }

  /** With no own record, the merge synthesizes the tagged template record. */
  lemma MergeUnanswered(uid: string)
    ensures var m := Merge([], [map["id" := Str("t1"), "published" := Bool(true)]], uid);
      m.own + m.synthesized == [map["id" := Str("t1"), "published" := Bool(true), "questionId" := Str("t1")]]
  {
    var t := map["id" := Str("t1"), "published" := Bool(true)];
    var tagged := map["id" := Str("t1"), "published" := Bool(true), "questionId" := Str("t1")];
    TaggedT1();
    UnansweredCandidates();
    var m := Merge([], [t], uid);
    assert m.own == [] && m.synthesized == [tagged];
  }

  lemma TaggedT1()
    ensures TagQuestion(map["id" := Str("t1"), "published" := Bool(true)])
         == map["id" := Str("t1"), "published" := Bool(true), "questionId" := Str("t1")]
  {
  }

  lemma UnansweredCandidates()
    ensures var t := map["id" := Str("t1"), "published" := Bool(true)];
      Select([t], (x: Record) => Published(x) && !Overlaid(x, [])) == [t]
  {
  }

  /** For a Users resource whose filters and template read succeed, the
      matches are the overlay merge of the two filtered lists. */
  lemma UsersMatches(sorted: seq<Record>, src: SourceReads, who: Principal, name: string, f: Filter,
                     filtered: seq<Record>, templates: seq<Record>, tf: seq<Record>)
    requires IsUsersFamily(name)
    requires FilterArray(sorted, f) == Ok(filtered)
    requires FreshRead(src, TemplateOf(name)) == Ok(templates)
    requires FilterArray(templates, f) == Ok(tf)
    ensures ListMatches(sorted, src, who, name, f)
         == Ok(Merge(filtered, tf, who.uid).own + Merge(filtered, tf, who.uid).synthesized)
  {
  }

  /** Once the principal's own record answers `t1`, `getList` returns that
      record and no longer synthesizes one for `t1`. */
  lemma OverlayStopsDuplicate(who: Principal)
    ensures var out := GetList(map["analysisDataUsers" := [AnswerT1(who.uid)]], TemplateReads(), who,
                               "analysisDataUsers", ListParams(None, [], None));
      out.result == Ok(Page([AnswerT1(who.uid)], 1))
  {
    var own := AnswerT1(who.uid);
    var sorted := SortArray([own], "id", Asc);
    assert sorted == [own] by {
      assert |sorted| == 1 && sorted[0] in multiset(sorted);
    }
    AnsweredMatches(who);
  }

  lemma AnsweredMatches(who: Principal)
    ensures ListMatches([AnswerT1(who.uid)], TemplateReads(), who, "analysisDataUsers", []) == Ok([AnswerT1(who.uid)])
  {
    var own := AnswerT1(who.uid);
    var t := map["id" := Str("t1"), "published" := Bool(true)];
    ExampleTemplates();
    assert FilterArray([own], []) == Ok([own]);
    UsersMatches([own], TemplateReads(), who, "analysisDataUsers", [], [own], [t], [t]);
    MergeAnswered(who.uid);
  }

  /** With the own answer to `t1`, the merge keeps it and synthesizes nothing. */
  lemma MergeAnswered(uid: string)
    ensures var m := Merge([AnswerT1(uid)], [map["id" := Str("t1"), "published" := Bool(true)]], uid);
      m.own + m.synthesized == [AnswerT1(uid)]
  {
    var own := AnswerT1(uid);
    var t := map["id" := Str("t1"), "published" := Bool(true)];
    assert OwnPublished(own, uid);
    assert Select([own], (x: Record) => OwnPublished(x, uid)) == [own];
    assert Overlaid(t, [own]) by {
      assert StrictEquals(Field(own, "questionId"), Field(t, "id"));
    }
    assert Select([t], (x: Record) => Published(x) && !Overlaid(x, [own])) == [];
    var m := Merge([own], [t], uid);
    assert m.own == [own] && m.synthesized == [];
  }

  // --------------------------------------------------------------- dispatch

  /** The error `tryGetResource` raises for an unregistered name. */
  predicate Unregistered<T>(r: Result<T>) {
    r.Err? && r.error.ResourceNotFound?
  }

  /** The provider calls `initPath(name)` before every operation, so no
      read then fails with `ResourceNotFound`. */
  lemma DispatchRegistersList(reg: Registry, src: SourceReads, who: Principal, name: string,
                              p: ListParams, q: ReferenceParams)
    ensures !Unregistered(GetList(InitPath(reg, name), src, who, name, p).result)
    ensures !Unregistered(GetManyReference(InitPath(reg, name), src, name, q).result)
  {
    InitPathThenLookup(reg, name);
  }

  lemma DispatchRegistersOne(reg: Registry, src: SourceReads, who: Principal, name: string,
                             id: Option<string>, ids: seq<string>)
    ensures !Unregistered(GetOne(InitPath(reg, name), src, who, name, id))
    ensures !Unregistered(GetMany(InitPath(reg, name), src, name, ids))
  {
    InitPathThenLookup(reg, name);
  }

  /** Nor does any write. */
  lemma DispatchRegistersWrites(reg: Registry, src: SourceReads, st: Store, keys: nat -> string, who: Principal,
                                name: string, id: string, ids: seq<string>, data: Record)
    ensures !Unregistered(Create(InitPath(reg, name), st, keys, who, name, data).result)
    ensures !Unregistered(Update(InitPath(reg, name), src, st, keys, who, name, id, data).result)
    ensures !Unregistered(UpdateMany(InitPath(reg, name), st, keys, who, name, ids, data).result)
    ensures !Unregistered(Delete(InitPath(reg, name), st, name, id, data).result)
    ensures !Unregistered(DeleteMany(InitPath(reg, name), st, name, ids).result)
  {
    InitPathThenLookup(reg, name);
  }
}

=== FILE: seqs.dfy ===
/** Order-preserving selection from sequences, the `Array.prototype.filter` of the model. */
module Seqs {

  /** `a` is obtained from `b` by deleting elements, keeping the order of the rest. */
  predicate Subsequence<T(==)>(a: seq<T>, b: seq<T>)
    decreases |b|
  {
    if a == [] then true
    else if b == [] then false
    else (a[0] == b[0] && Subsequence(a[1..], b[1..])) || Subsequence(a, b[1..])
  }

  lemma {:induction false} SubsequenceRefl<T>(a: seq<T>)
    ensures Subsequence(a, a)
    decreases |a|
  {
    if a != [] {
      SubsequenceRefl(a[1..]);
    }
  }

  /** A subsequence of a subsequence is a subsequence. */
  lemma {:induction false} SubsequenceTrans<T>(a: seq<T>, b: seq<T>, c: seq<T>)
    requires Subsequence(a, b) && Subsequence(b, c)
    ensures Subsequence(a, c)
    decreases |c|
  {
    if a == [] || c == [] {
    } else if Subsequence(b, c[1..]) {
      SubsequenceTrans(a, b, c[1..]);
    } else {
      assert b[0] == c[0] && Subsequence(b[1..], c[1..]);
      if a[0] == b[0] && Subsequence(a[1..], b[1..]) {
        SubsequenceTrans(a[1..], b[1..], c[1..]);
      } else {
        SubsequenceTrans(a, b[1..], c[1..]);
      }
    }
  }

  /** A subsequence is no longer than the whole. */
  lemma {:induction false} SubsequenceLength<T>(a: seq<T>, b: seq<T>)
    requires Subsequence(a, b)
    ensures |a| <= |b|
    decreases |b|
  {
    if a != [] {
      if a[0] == b[0] && Subsequence(a[1..], b[1..]) {
        SubsequenceLength(a[1..], b[1..]);
      } else {
        SubsequenceLength(a, b[1..]);
      }
    }
  }

  /** Every element of a subsequence is an element of the whole. */
  lemma {:induction false} SubsequenceMembers<T>(a: seq<T>, b: seq<T>)
    requires Subsequence(a, b)
    ensures forall x :: x in a ==> x in b
    decreases |b|
  {
    if a != [] {
      if a[0] == b[0] && Subsequence(a[1..], b[1..]) {
        SubsequenceMembers(a[1..], b[1..]);
        assert a == [a[0]] + a[1..] && b == [b[0]] + b[1..];
      } else {
        SubsequenceMembers(a, b[1..]);
      }
    }
  }

  /** The elements of `s` that `keep` accepts, in their original order. */
  function Select<T(==,!new)>(s: seq<T>, keep: T -> bool): (r: seq<T>)
    ensures Subsequence(r, s)
    ensures forall x :: x in r <==> x in s && keep(x)
    ensures forall x :: multiset(r)[x] == if keep(x) then multiset(s)[x] else 0
    decreases |s|
  {
    if s == [] then []
    else
      var rest := Select(s[1..], keep);
      assert s == [s[0]] + s[1..];
      if keep(s[0]) then [s[0]] + rest else rest
  }

  /** A selection is empty exactly when nothing in the list is accepted. */
  lemma SelectEmpty<T(!new)>(s: seq<T>, keep: T -> bool)
    ensures |Select(s, keep)| == 0 <==> forall x :: x in s ==> !keep(x)
  {
    if |Select(s, keep)| > 0 {
      assert Select(s, keep)[0] in Select(s, keep);
    }
  }

  /** Lists that are permutations of each other have the same members. */
  lemma PermutationMembers<T>(a: seq<T>, b: seq<T>)
    requires multiset(a) == multiset(b)
    ensures forall x :: x in a <==> x in b
  {
    forall x
      ensures x in a <==> x in b
    {
      assert x in a <==> x in multiset(a);
      assert x in b <==> x in multiset(b);
    }
  }

  /** Index `i` holds the last element of `s` that satisfies `p`. */
  ghost predicate LastMatchAt<T>(s: seq<T>, p: T -> bool, i: int) {
    0 <= i < |s| && p(s[i]) && forall j :: i < j < |s| ==> !p(s[j])
  }

  /** `x` is the last element of `s` that satisfies `p`. */
  ghost predicate IsLastMatch<T>(s: seq<T>, p: T -> bool, x: T) {
    exists i :: LastMatchAt(s, p, i) && s[i] == x
  }

  /** The last element of a selection is the last element of the whole that
      satisfies the predicate (what `filter(...).pop()` returns). */
  lemma {:induction false} LastOfSelect<T(!new)>(s: seq<T>, p: T -> bool)
    requires |Select(s, p)| > 0
    ensures IsLastMatch(s, p, Select(s, p)[|Select(s, p)| - 1])
    decreases |s|
  {
    var r := Select(s, p);
    var tail := Select(s[1..], p);
    if |tail| > 0 {
      assert r[|r| - 1] == tail[|tail| - 1];
      LastOfSelect(s[1..], p);
      var i :| LastMatchAt(s[1..], p, i) && s[1..][i] == tail[|tail| - 1];
      ShiftLastMatch(s, p, i);
    } else {
      assert p(s[0]) && r == [s[0]];
      forall j | 0 < j < |s|
        ensures !p(s[j])
      {
        assert s[j] in s[1..];
      }
      assert LastMatchAt(s, p, 0);
    }
  }

  lemma ShiftLastMatch<T>(s: seq<T>, p: T -> bool, i: int)
    requires |s| > 0 && LastMatchAt(s[1..], p, i)
    ensures LastMatchAt(s, p, i + 1) && s[i + 1] == s[1..][i]
  {
    forall j | i + 1 < j < |s|
      ensures !p(s[j])
    {
      assert s[j] == s[1..][j - 1];
    }
  }

  /** Applies `f` to every element, like `Array.prototype.map`. */
  function Map<T, U>(s: seq<T>, f: T -> U): (r: seq<U>)
    ensures |r| == |s|
    ensures forall i :: 0 <= i < |s| ==> r[i] == f(s[i])
  {
    seq(|s|, i requires 0 <= i < |s| => f(s[i]))
  }

  /** The elements of `Map(s, f)` are exactly the images of elements of `s`. */
  lemma MapMembers<T, U>(s: seq<T>, f: T -> U)
    ensures forall y :: y in Map(s, f) ==> exists x :: x in s && y == f(x)
    ensures forall x :: x in s ==> f(x) in Map(s, f)
  {
    var r := Map(s, f);
    forall y | y in r
      ensures exists x :: x in s && y == f(x)
    {
      var i :| 0 <= i < |r| && r[i] == y;
      assert s[i] in s;
    }
    forall x | x in s
      ensures f(x) in r
    {
      var i :| 0 <= i < |s| && s[i] == x;
      assert r[i] == f(x);
    }
  }

  /** Mapping keeps the order a subsequence has in the whole. */
  lemma {:induction false} MapSubsequence<T, U>(a: seq<T>, b: seq<T>, f: T -> U)
    requires Subsequence(a, b)
    ensures Subsequence(Map(a, f), Map(b, f))
    decreases |b|
  {
    if a != [] {
      assert Map(b, f)[1..] == Map(b[1..], f);
      if a[0] == b[0] && Subsequence(a[1..], b[1..]) {
        MapSubsequence(a[1..], b[1..], f);
        assert Map(a, f)[1..] == Map(a[1..], f);
      } else {
        MapSubsequence(a, b[1..], f);
      }
    }
  }

  /** The elements of `s` in the opposite order. */
  function Reverse<T>(s: seq<T>): (r: seq<T>)
    ensures |r| == |s|
    ensures forall i :: 0 <= i < |s| ==> r[i] == s[|s| - 1 - i]
  {
    seq(|s|, i requires 0 <= i < |s| => s[|s| - 1 - i])
  }

  /** Reversing a list permutes it. */
  lemma {:induction false} ReversePermutation<T>(s: seq<T>)
    ensures multiset(Reverse(s)) == multiset(s)
    decreases |s|
  {
    if s != [] {
      ReversePermutation(s[1..]);
      assert Reverse(s) == Reverse(s[1..]) + [s[0]];
      assert s == [s[0]] + s[1..];
    }
  }
}

=== FILE: store.dfy ===
/**
 * The remote document store, reduced to what the data provider does with
 * it: `doc(key).set`, `add` under a store-generated key, `doc(key).update`
 * (rejected when the document does not exist), `doc(key).delete` and a
 * batch of deletes committed together.
 */
module DocStore {
  import opened Outcomes
  import opened Values

  /** Collection name to document key to stored fields. `minted` counts the
      keys handed out by `add`; the key sequence itself is a parameter
      (`keys: nat -> string`) because the store generates it at random. */
  datatype Store = Store(collections: map<string, map<string, Record>>, minted: nat)

  /** The documents of a collection; a collection never written is empty. */
  function Docs(st: Store, c: string): map<string, Record> {
    if c in st.collections then st.collections[c] else map[]
  }

  /** The stored fields of document `k` of collection `c`, if it exists. */
  function Lookup(st: Store, c: string, k: string): Option<Record> {
    if k in Docs(st, c) then Some(Docs(st, c)[k]) else None
  }

  /** Every document other than `(c, k)` reads the same in both stores. */
  ghost predicate SameElsewhere(a: Store, b: Store, c: string, k: string) {
    forall c', k' :: (c' != c || k' != k) ==> Lookup(a, c', k') == Lookup(b, c', k')
  }

  /** `collection(c).doc(k).set(doc)`: creates or replaces the document. */
  function SetDoc(st: Store, c: string, k: string, doc: Record): (r: Store)
    ensures Lookup(r, c, k) == Some(doc)
    ensures SameElsewhere(st, r, c, k)
    ensures r.minted == st.minted
  {
    Store(st.collections[c := Docs(st, c)[k := doc]], st.minted)
  }

  /** The fields a snapshot delivers for stored fields: the store replaces
      every `serverTimestamp()` sentinel by the timestamp of the commit that
      wrote it, `when(field)`; every other value arrives as stored. */
  function Resolve(fields: Record, when: string -> string): (r: Record)
    ensures r.Keys == fields.Keys
    ensures forall f :: f in fields && fields[f] != ServerTimestamp ==> r[f] == fields[f]
    ensures forall f :: f in fields && fields[f] == ServerTimestamp ==> r[f] == Timestamp(when(f))
    ensures forall f :: f in r ==> !r[f].ServerTimestamp?
  {
    map f | f in fields :: if fields[f] == ServerTimestamp then Timestamp(when(f)) else fields[f]
  }

  /** A document added under a generated key. */
  datatype Added = Added(store: Store, key: string)

  /** `collection(c).add(doc)`: stores the document under the next generated key. */
  function AddDoc(st: Store, c: string, doc: Record, keys: nat -> string): (r: Added)
    ensures r.key == keys(st.minted)
    ensures Lookup(r.store, c, r.key) == Some(doc)
    ensures SameElsewhere(st, r.store, c, r.key)
    ensures r.store.minted == st.minted + 1
  {
    var k := keys(st.minted);
    Added(Store(st.collections[c := Docs(st, c)[k := doc]], st.minted + 1), k)
  }

  /** The keys `add` hands out for `n` documents, the first being number `from`. */
  function AddedKeys(keys: nat -> string, from: nat, n: nat): set<string> {
    set m: nat | from <= m < from + n :: keys(m)
  }

  /** The next `n` generated keys are pairwise distinct and name neither a
      stored document of `c` nor any of `avoid`: an auto-generated key never
      collides with an existing one. */
  ghost predicate FreshKeys(st: Store, c: string, keys: nat -> string, n: nat, avoid: seq<string>) {
    && (forall m: nat :: st.minted <= m < st.minted + n ==> Lookup(st, c, keys(m)).None? && keys(m) !in avoid)
    && (forall m: nat, m': nat :: st.minted <= m < m' < st.minted + n ==> keys(m) != keys(m'))
  }

  /** `after` is `before` with the named fields overwritten and the others kept. */
  ghost predicate Patched(before: Record, fields: Record, after: Record) {
    && after.Keys == before.Keys + fields.Keys
    && (forall f :: f in fields ==> after[f] == fields[f])
    && (forall f :: f in before && f !in fields ==> after[f] == before[f])
  }

  /** `collection(c).doc(k).update(fields)`: overwrites the named fields of
      an existing document and keeps the others; rejected when the document
      does not exist. */
  function UpdateDoc(st: Store, c: string, k: string, fields: Record): (r: Result<Store>)
    ensures r.Err? <==> Lookup(st, c, k).None?
    ensures r.Err? ==> r.error == StoreFailure
    ensures r.Ok? ==> SameElsewhere(st, r.value, c, k) && r.value.minted == st.minted
    ensures r.Ok? ==> Lookup(r.value, c, k).Some?
    ensures r.Ok? ==> Patched(Lookup(st, c, k).value, fields, Lookup(r.value, c, k).value)
  {
    match Lookup(st, c, k)
    case None => Err(StoreFailure)
    case Some(doc) => Ok(SetDoc(st, c, k, doc + fields))
  }

  /** An update whose promise nobody awaits: a rejection is lost and the
      store stays as it was. */
  function UpdateUnawaited(st: Store, c: string, k: string, fields: Record): (r: Store)
    ensures Lookup(st, c, k).None? ==> r == st
    ensures Lookup(st, c, k).Some? ==> Ok(r) == UpdateDoc(st, c, k, fields)
  {
    match UpdateDoc(st, c, k, fields)
    case Ok(s) => s
    case Err(_) => st
  }

  /** Repeating an update with the same fields changes nothing more. */
  lemma UpdateTwiceIsOnce(st: Store, c: string, k: string, fields: Record)
    ensures UpdateUnawaited(UpdateUnawaited(st, c, k, fields), c, k, fields) == UpdateUnawaited(st, c, k, fields)
  {
    if Lookup(st, c, k).Some? {
      var doc := Lookup(st, c, k).value;
      var once := SetDoc(st, c, k, doc + fields);
      assert (doc + fields) + fields == doc + fields;
      assert Docs(once, c)[k := doc + fields] == Docs(once, c);
      assert once.collections[c := Docs(once, c)] == once.collections;
    }
  }

  /** `collection(c).doc(k).delete()`: removing a missing document succeeds. */
  function DeleteDoc(st: Store, c: string, k: string): (r: Store)
    ensures Lookup(r, c, k).None?
    ensures SameElsewhere(st, r, c, k)
    ensures r.minted == st.minted
  {
    Store(st.collections[c := Docs(st, c) - {k}], st.minted)
  }

  /** A batch of deletes in collection `c`, committed at once. */
  function DeleteBatch(st: Store, c: string, ks: seq<string>): (r: Store)
    ensures forall k :: Lookup(r, c, k) == if k in ks then None else Lookup(st, c, k)
    ensures forall c', k :: c' != c ==> Lookup(r, c', k) == Lookup(st, c', k)
    ensures r.minted == st.minted
  {
    Store(st.collections[c := Docs(st, c) - set k | k in ks], st.minted)
  }

  /** Committing the same batch again leaves the store as it is. */
  lemma DeleteBatchIdempotent(st: Store, c: string, ks: seq<string>)
    ensures DeleteBatch(DeleteBatch(st, c, ks), c, ks) == DeleteBatch(st, c, ks)
  {
    var once := DeleteBatch(st, c, ks);
    assert Docs(once, c) - (set k | k in ks) == Docs(once, c);
  }
}

=== FILE: text.dfy ===
/**
 * The string primitives the data provider relies on: lower-casing, the
 * `includes` substring test and JavaScript's `<` on strings, written out as
 * an explicit lexicographic order on characters.
 */
module Text {

  /** Lower-cases one character; only the ASCII letters `A`..`Z` change. */
  function LowerChar(c: char): char {
    if 'A' <= c <= 'Z' then (c as int + 32) as char else c
  }

  /** `s.toLowerCase()`, restricted to ASCII case mapping. */
  function Lower(s: string): (r: string)
    ensures |r| == |s|
    ensures forall i :: 0 <= i < |s| ==> r[i] == LowerChar(s[i])
  {
    seq(|s|, i requires 0 <= i < |s| => LowerChar(s[i]))
  }

  /** A string is in lower case when lower-casing leaves it unchanged. */
  predicate IsLower(s: string) {
    Lower(s) == s
  }

  /** Lower-casing twice is lower-casing once. */
  lemma LowerIsLower(s: string)
    ensures IsLower(Lower(s))
  {
  }

  /** `t` occurs in `s` starting at index `k`. */
  predicate OccursAt(s: string, t: string, k: int) {
    0 <= k && k + |t| <= |s| && s[k..k + |t|] == t
  }

  /** `s.includes(t)`. */
  predicate Contains(s: string, t: string) {
    exists k | 0 <= k <= |s| :: OccursAt(s, t, k)
  }

  /** The empty search text occurs in every string. */
  lemma ContainsEmpty(s: string)
    ensures Contains(s, "")
  {
    assert OccursAt(s, "", 0);
  }

  /** JavaScript's `a < b` on strings: lexicographic, a proper prefix is smaller. */
  predicate LexLess(a: string, b: string) {
    if |b| == 0 then false
    else if |a| == 0 then true
    else if a[0] != b[0] then a[0] < b[0]
    else LexLess(a[1..], b[1..])
  }

  /** `a <= b` on strings. */
  predicate LexLessEq(a: string, b: string) {
    a == b || LexLess(a, b)
  }

  lemma {:induction false} LexLessAsymmetric(a: string, b: string)
    ensures LexLess(a, b) ==> !LexLess(b, a)
  {
    if |a| > 0 && |b| > 0 && a[0] == b[0] {
      LexLessAsymmetric(a[1..], b[1..]);
    }
  }

  lemma {:induction false} LexLessTransitive(a: string, b: string, c: string)
    requires LexLess(a, b) && LexLess(b, c)
    ensures LexLess(a, c)
  {
    if |a| > 0 && a[0] == b[0] && b[0] == c[0] {
      LexLessTransitive(a[1..], b[1..], c[1..]);
    }
  }

  /** Two different strings are always ordered one way or the other. */
  lemma {:induction false} LexLessTotal(a: string, b: string)
    ensures a == b || LexLess(a, b) || LexLess(b, a)
  {
    if |a| > 0 && |b| > 0 && a[0] == b[0] {
      LexLessTotal(a[1..], b[1..]);
      if a[1..] == b[1..] {
        assert a == [a[0]] + a[1..] && b == [b[0]] + b[1..];
      }
    }
  }
}

=== FILE: values.dfy ===
/**
 * Field values and records as the data provider sees them: a record is a
 * JavaScript object, modelled as a map from field name to value, and a
 * document is a remote document key together with its stored fields.
 */
module Values {
  import opened Outcomes

  /** The field values the model distinguishes. `ServerTimestamp` is the
      write-only sentinel: the model's store keeps it as written, and a snapshot
      delivers the commit's `Timestamp` in its place (`DocStore.Resolve`).
      A `Timestamp` carries the ISO-8601 text `toDate().toISOString()` gives. */
  datatype Value =
    | Str(s: string)
    | Bool(b: bool)
    | Null
    | Timestamp(iso: string)
    | ServerTimestamp

  type Record = map<string, Value>

  /** A remote document: its key in the collection and its stored fields. */
  datatype Document = Document(key: string, fields: Record)

  /** The current principal (`firebase.auth().currentUser`). */
  datatype Principal = Principal(uid: string, email: string)

  /** `record[field]`; `None` is `undefined`. */
  function Field(r: Record, f: string): (v: Option<Value>)
    ensures v.Some? <==> f in r
    ensures v.Some? ==> v.value == r[f]
  {
    if f in r then Some(r[f]) else None
  }

  /** JavaScript truthiness: `undefined`, `null`, `false` and `""` are falsy. */
  predicate Truthy(v: Option<Value>) {
    match v
    case None => false
    case Some(Null) => false
    case Some(Bool(b)) => b
    case Some(Str(s)) => s != ""
    case Some(_) => true
  }

  /** `value.toString()`. A timestamp's text is modelled as its ISO text;
      the sentinel is a plain object. */
  function Stringify(v: Value): string {
    match v
    case Str(s) => s
    case Bool(b) => if b then "true" else "false"
    case Null => "null"
    case Timestamp(iso) => iso
    case ServerTimestamp => "[object Object]"
  }

  /** JavaScript `===` on two field reads. Strings and booleans compare by
      value; timestamp objects read from different documents are never the
      same object. */
  predicate StrictEquals(a: Option<Value>, b: Option<Value>) {
    match (a, b)
    case (None, None) => true
    case (Some(Str(x)), Some(Str(y))) => x == y
    case (Some(Bool(x)), Some(Bool(y))) => x == y
    case (Some(Null), Some(Null)) => true
    case _ => false
  }

  /** A string parameter as a field value; `None` stays `undefined`. */
  function OptStr(id: Option<string>): Option<Value> {
    match id
    case None => None
    case Some(s) => Some(Str(s))
  }

  /** `record.id === id`. */
  predicate HasId(r: Record, id: Option<string>) {
    StrictEquals(Field(r, "id"), OptStr(id))
  }
}

=== FILE: writes.dfy ===
/**
 * The write operations of `FirebaseClient`: `apiCreate`, `apiUpdate`,
 * `apiUpdateMany`, `apiDelete` and `apiDeleteMany`, as effects on the
 * document store. The registry is only consulted: writes reach the mirror
 * lists later, through a snapshot delivery.
 */
module WriteApi {
  import opened Outcomes
  import opened Text
  import opened Values
  import opened Seqs
  import opened Registry
  import opened DocStore
  import opened Overlay

  /** A write's result and the store afterwards. */
  datatype Written<+T> = Written(result: Result<T>, store: Store)

  /** The provenance fields `add` and `set` write on creation. */
  function CreateStamps(who: Principal): Record {
    map["createdate" := ServerTimestamp, "lastupdate" := ServerTimestamp,
        "createdByUid" := Str(who.uid), "updatedByUid" := Str(who.uid),
        "createdByEmail" := Str(who.email), "updatedByEmail" := Str(who.email)]
  }

  /** The provenance fields `apiUpdate` writes; note `updatedByEMail`. */
  function UpdateStamps(who: Principal): Record {
    map["lastupdate" := ServerTimestamp, "updatedByUid" := Str(who.uid), "updatedByEMail" := Str(who.email)]
  }

  /** The provenance fields `apiUpdateMany` writes on update; `updatedByEmail`. */
  function ManyUpdateStamps(who: Principal): Record {
    map["lastupdate" := ServerTimestamp, "updatedByUid" := Str(who.uid), "updatedByEmail" := Str(who.email)]
  }

  /** The provenance fields `apiUpdateMany` writes when it adds a document. */
  function ManyCreateStamps(who: Principal): Record {
    map["createdate" := ServerTimestamp, "createdByUid" := Str(who.uid), "createdByEmail" := Str(who.email)]
  }

  /** The stamps a creation leaves: fields of `data` survive unless a stamp
      of the same name overrides them. */
  lemma CreateStampsProvenance(data: Record, who: Principal)
    ensures var doc := data + CreateStamps(who);
      && doc["createdByUid"] == Str(who.uid) && doc["updatedByUid"] == Str(who.uid)
      && doc["createdByEmail"] == Str(who.email) && doc["updatedByEmail"] == Str(who.email)
      && doc["createdate"] == ServerTimestamp && doc["lastupdate"] == ServerTimestamp
      && (forall k :: k in data && k !in CreateStamps(who) ==> doc[k] == data[k])
      && doc.Keys == data.Keys + CreateStamps(who).Keys
  {
  }

  // ----------------------------------------------------------------- create

  /** `apiCreate`. A truthy `myId` names the document: it is lower-cased,
      removed from the data and used as the key of a `set`; otherwise the
      store adds the document under the next generated key. */
  function Create(mirror: Registry, st: Store, keys: nat -> string, who: Principal, name: string, data: Record)
    : (out: Written<Record>)
    ensures name !in mirror ==> out == Written(Err(ResourceNotFound(name)), st)
    ensures name in mirror && Truthy(Field(data, "myId")) && !data["myId"].Str? ==> out == Written(Err(TypeError), st)
    ensures name in mirror && Truthy(Field(data, "myId")) && data["myId"].Str? ==>
      var key := Lower(data["myId"].s);
      && IsLower(key)
      && out.result.Ok? && out.result.value == (data - {"myId"})["id" := Str(key)]
      && Lookup(out.store, name, key) == Some((data - {"myId"}) + CreateStamps(who))
      && SameElsewhere(st, out.store, name, key)
      && out.store.minted == st.minted
    ensures name in mirror && !Truthy(Field(data, "myId")) ==>
      var key := keys(st.minted);
      && out.result.Ok? && out.result.value == data["id" := Str(key)]
      && Lookup(out.store, name, key) == Some(data + CreateStamps(who))
      && SameElsewhere(st, out.store, name, key)
      && out.store.minted == st.minted + 1
  {
    if name !in mirror then Written(Err(ResourceNotFound(name)), st)
    else if Truthy(Field(data, "myId")) then
      match data["myId"]
      case Str(s) =>
        var key := Lower(s);
        LowerIsLower(s);
        var rest := data - {"myId"};
        Written(Ok(rest["id" := Str(key)]), SetDoc(st, name, key, rest + CreateStamps(who)))
      case _ => Written(Err(TypeError), st)
    else
      var a := AddDoc(st, name, data + CreateStamps(who), keys);
      Written(Ok(data["id" := Str(a.key)]), a.store)
  }

  // ----------------------------------------------------------------- update

  /** One call of the scoring webhook: `POST {source, id}`. */
  datatype Webhook = Webhook(source: string, id: string)

  /** An update's result, the store afterwards and the webhook calls made. */
  datatype Updated = Updated(result: Result<Record>, store: Store, webhooks: seq<Webhook>)

  /** The mirror list holds a record whose id is `id`. */
  predicate HasRecord(list: seq<Record>, id: string) {
    exists x :: x in list && HasId(x, Some(id))
  }

  /** `apiUpdate` on a Users resource whose mirror list has no record `id`
      turns into an add. */
  predicate Upserts(mirror: Registry, name: string, id: string) {
    IsUsersFamily(name) && name in mirror && !HasRecord(mirror[name], id)
  }

  /** The document an in-place `apiUpdate` writes: `profile` redirects to
      the principal's `users` document. */
  function UpdateCollection(name: string): string {
    if name == "profile" then "users" else name
  }

  function UpdateKey(name: string, id: string, who: Principal): string {
    if name == "profile" then who.uid else id
  }

  /** `apiUpdate`. */
  function Update(mirror: Registry, src: SourceReads, st: Store, keys: nat -> string, who: Principal,
                  name: string, id: string, data: Record): (out: Updated)
    // The resource lookup: `profile` reads `users` fresh, the rest use the registry.
    ensures name == "profile" && "users" !in src ==> out == Updated(Err(StoreFailure), st, [])
    ensures name != "profile" && name !in mirror ==> out == Updated(Err(ResourceNotFound(name)), st, [])
    // Upsert: a new document tagged with `questionId`, the response under the requested id.
    ensures Upserts(mirror, name, id) ==>
      var added := (data - {"id"})["questionId" := Str(id)];
      && out.result == Ok(added["id" := Str(id)])
      && Lookup(out.store, name, keys(st.minted)) == Some(added + CreateStamps(who))
      && SameElsewhere(st, out.store, name, keys(st.minted))
      && out.store.minted == st.minted + 1
      && out.webhooks == [Webhook(name, who.uid)]
    // In-place update of an existing document, rejected when it is missing.
    ensures (name == "profile" ==> "users" in src) && (name != "profile" ==> name in mirror) && !Upserts(mirror, name, id) ==>
      var c, k := UpdateCollection(name), UpdateKey(name, id, who);
      && (out.result.Err? <==> Lookup(st, c, k).None?)
      && (out.result.Err? ==> out.result.error == StoreFailure && out.store == st)
      && (out.result.Ok? ==>
            && Lookup(out.store, c, k).Some?
            && Patched(Lookup(st, c, k).value, (data - {"id"}) + UpdateStamps(who), Lookup(out.store, c, k).value)
            && SameElsewhere(st, out.store, c, k)
            && out.store.minted == st.minted)
    // Every successful response carries the requested id.
    ensures out.result.Ok? ==> "id" in out.result.value && out.result.value["id"] == Str(id)
    // The scoring webhook: Users resources after a successful write, `users` before the write.
    ensures IsUsersFamily(name) ==> out.webhooks == if out.result.Ok? then [Webhook(name, who.uid)] else []
    ensures name == "users" && name in mirror ==> out.webhooks == [Webhook("users", id)]
    ensures !IsUsersFamily(name) && name != "users" ==> out.webhooks == []
  {
    var body := data - {"id"};
    var resolved := if name == "profile" then FreshRead(src, "users") else TryGetResource(mirror, name);
    if resolved.Err? then Updated(Err(resolved.error), st, [])
    else if IsUsersFamily(name) then UpdateFamily(resolved.value, st, keys, who, name, id, body)
    else UpdatePlain(st, who, name, id, body)
  }

  /** `apiUpdate` on a Users resource whose mirror list is `list`. */
  function UpdateFamily(list: seq<Record>, st: Store, keys: nat -> string, who: Principal,
                        name: string, id: string, body: Record): (out: Updated)
    ensures !HasRecord(list, id) ==>
      var added := body["questionId" := Str(id)];
      && out.result == Ok(added["id" := Str(id)])
      && Lookup(out.store, name, keys(st.minted)) == Some(added + CreateStamps(who))
      && SameElsewhere(st, out.store, name, keys(st.minted))
      && out.store.minted == st.minted + 1
    ensures HasRecord(list, id) ==>
      && (out.result.Err? <==> Lookup(st, name, id).None?)
      && (out.result.Err? ==> out.result.error == StoreFailure && out.store == st)
      && (out.result.Ok? ==>
            && Lookup(out.store, name, id).Some?
            && Patched(Lookup(st, name, id).value, body + UpdateStamps(who), Lookup(out.store, name, id).value)
            && SameElsewhere(st, out.store, name, id)
            && out.store.minted == st.minted)
    ensures out.result.Ok? ==> "id" in out.result.value && out.result.value["id"] == Str(id)
    ensures out.webhooks == if out.result.Ok? then [Webhook(name, who.uid)] else []
  {
    if !HasRecord(list, id) then
      var added := body["questionId" := Str(id)];
      var a := AddDoc(st, name, added + CreateStamps(who), keys);
      Updated(Ok(added["id" := Str(id)]), a.store, [Webhook(name, who.uid)])
    else
      match UpdateDoc(st, name, id, body + UpdateStamps(who))
      case Err(e) => Updated(Err(e), st, [])
      case Ok(s) => Updated(Ok(body["id" := Str(id)]), s, [Webhook(name, who.uid)])
  }

  /** `apiUpdate` on any other registered resource, `profile` included. */
  function UpdatePlain(st: Store, who: Principal, name: string, id: string, body: Record): (out: Updated)
    ensures var c, k := UpdateCollection(name), UpdateKey(name, id, who);
      && (out.result.Err? <==> Lookup(st, c, k).None?)
      && (out.result.Err? ==> out.result.error == StoreFailure && out.store == st)
      && (out.result.Ok? ==>
            && Lookup(out.store, c, k).Some?
            && Patched(Lookup(st, c, k).value, body + UpdateStamps(who), Lookup(out.store, c, k).value)
            && SameElsewhere(st, out.store, c, k)
            && out.store.minted == st.minted)
    ensures out.result.Ok? ==> "id" in out.result.value && out.result.value["id"] == Str(id)
    ensures out.webhooks == if name == "users" then [Webhook("users", id)] else []
  {
    var work := body + UpdateStamps(who);
    var hooks := if name == "users" then [Webhook("users", id)] else [];
    match UpdateDoc(st, UpdateCollection(name), UpdateKey(name, id, who), work)
    case Err(e) => Updated(Err(e), st, hooks)
    case Ok(s) => Updated(Ok(work["id" := Str(id)]), s, hooks)
  }

  /** `apiUpdate` never writes the caller's `id` field: an added document
      has none, and an updated one keeps the `id` it had. */
  lemma UpdateStripsId(mirror: Registry, src: SourceReads, st: Store, keys: nat -> string, who: Principal,
                       name: string, id: string, data: Record)
    requires Update(mirror, src, st, keys, who, name, id, data).result.Ok?
    ensures var out := Update(mirror, src, st, keys, who, name, id, data);
      if Upserts(mirror, name, id) then
        "id" !in Lookup(out.store, name, keys(st.minted)).value
      else
        var c, k := UpdateCollection(name), UpdateKey(name, id, who);
        Field(Lookup(out.store, c, k).value, "id") == Field(Lookup(st, c, k).value, "id")
  {
  }

  /** For data without a truthy `myId`, an upsert stores exactly what
      `apiCreate` stores for the same data with `id` removed and tagged with
      `questionId`, and answers the same apart from the id:
      `apiCreate` answers with the generated key, the upsert with the
      requested id. */
  lemma UpsertIsCreate(mirror: Registry, src: SourceReads, st: Store, keys: nat -> string, who: Principal,
                       name: string, id: string, data: Record)
    requires Upserts(mirror, name, id)
    requires !Truthy(Field(data, "myId"))
    ensures var up := Update(mirror, src, st, keys, who, name, id, data);
      var cr := Create(mirror, st, keys, who, name, (data - {"id"})["questionId" := Str(id)]);
      && up.store == cr.store
      && up.result.Ok? && cr.result.Ok?
      && up.result.value - {"id"} == cr.result.value - {"id"}
      && up.result.value["id"] == Str(id)
      && cr.result.value["id"] == Str(keys(st.minted))
  {
    var added := (data - {"id"})["questionId" := Str(id)];
    assert Field(added, "myId") == Field(data, "myId");
    assert added["id" := Str(id)] - {"id"} == added - {"id"};
    assert added["id" := Str(keys(st.minted))] - {"id"} == added - {"id"};
  }

  // ------------------------------------------------------------- updateMany

  /** The ids whose Users record is missing from the mirror list. */
  function MissingIds(list: seq<Record>): string -> bool {
    (id: string) => !HasRecord(list, id)
  }

  /** The loop of `apiUpdateMany`, one id at a time, as store effects in the
      order the calls are issued. Nobody awaits these writes, so an update
      of a missing document is lost. */
  function UpdateEach(list: seq<Record>, st: Store, keys: nat -> string, who: Principal, name: string,
                      ids: seq<string>, body: Record): (r: Store)
    decreases |ids|
  {
    if ids == [] then st
    else
      var id := ids[0];
      var fields := body + ManyUpdateStamps(who);
      var st1 := UpdateUnawaited(st, name, id, fields);
      var st2 :=
        if !IsUsersFamily(name) then st1
        else if !HasRecord(list, id) then AddDoc(st1, name, body + ManyCreateStamps(who), keys).store
        else UpdateUnawaited(st1, name, id, fields);
      UpdateEach(list, st2, keys, who, name, ids[1..], body)
  }

  /** The entry `apiUpdateMany` returns for one id. */
  function Entry(body: Record): string -> Record {
    (id: string) => body["id" := Str(id)]
  }

  /** `apiUpdateMany`. */
  function UpdateMany(mirror: Registry, st: Store, keys: nat -> string, who: Principal, name: string,
                      ids: seq<string>, data: Record): (out: Written<seq<Record>>)
    ensures name !in mirror ==> out == Written(Err(ResourceNotFound(name)), st)
    ensures name in mirror ==> out.result.Ok?
    // One entry per requested id, in request order, carrying that id and the data.
    ensures out.result.Ok? ==> |out.result.value| == |ids|
    ensures out.result.Ok? ==> forall i :: 0 <= i < |ids| ==>
      Field(out.result.value[i], "id") == Some(Str(ids[i]))
      && forall k :: k != "id" ==> Field(out.result.value[i], k) == Field(data, k)
  {
    var body := data - {"id"};
    if name !in mirror then Written(Err(ResourceNotFound(name)), st)
    else Written(Ok(Map(ids, Entry(body))), UpdateEach(mirror[name], st, keys, who, name, ids, body))
  }

  /** `(v + f) + f == v + f`. */
  lemma UpdateAgain(v: Record, f: Record)
    ensures (v + f) + f == v + f
  {
  }

  /** Outside the Users family `apiUpdateMany` merges the fields into every
      requested document that exists, leaves every other document as it was
      and adds nothing. The same holds for a Users resource whose mirror
      list holds every requested id: the second update it issues for each
      id changes nothing. */
  lemma {:induction false} UpdateEachMerges(list: seq<Record>, st: Store, keys: nat -> string, who: Principal,
                                            name: string, ids: seq<string>, body: Record)
    requires !IsUsersFamily(name) || forall id :: id in ids ==> HasRecord(list, id)
    ensures var r := UpdateEach(list, st, keys, who, name, ids, body);
      && r.minted == st.minted
      && (forall c, k :: c != name ==> Lookup(r, c, k) == Lookup(st, c, k))
      && forall k :: Lookup(r, name, k) ==
           if k in ids && Lookup(st, name, k).Some? then Some(Lookup(st, name, k).value + (body + ManyUpdateStamps(who)))
           else Lookup(st, name, k)
    decreases |ids|
  {
    if ids != [] {
      var fields := body + ManyUpdateStamps(who);
      var st1 := UpdateUnawaited(st, name, ids[0], fields);
      if IsUsersFamily(name) {
        assert ids[0] in ids;
        UpdateTwiceIsOnce(st, name, ids[0], fields);
      }
      UpdateEachMerges(list, st1, keys, who, name, ids[1..], body);
      var r := UpdateEach(list, st1, keys, who, name, ids[1..], body);
      assert r == UpdateEach(list, st, keys, who, name, ids, body);
      forall k
        ensures Lookup(r, name, k) ==
          if k in ids && Lookup(st, name, k).Some? then Some(Lookup(st, name, k).value + fields)
          else Lookup(st, name, k)
      {
        assert k in ids <==> k == ids[0] || k in ids[1..] by {
          assert ids == [ids[0]] + ids[1..];
        }
        if k == ids[0] && Lookup(st, name, k).Some? {
          UpdateAgain(Lookup(st, name, k).value, fields);
        }
      }
    }
  }

  /** What a document of `c` reads after the updates of `ids`: patched with
      `fields` when requested and present, unchanged otherwise. */
  function PatchedLookup(st: Store, c: string, k: string, ids: seq<string>, fields: Record): Option<Record> {
    if k in ids && Lookup(st, c, k).Some? then Some(Lookup(st, c, k).value + fields) else Lookup(st, c, k)
  }

  /** The effect of `apiUpdateMany` on a Users collection `c`, from `st` to
      `r`, when `n` requested ids were missing from the mirror: `n` keys were
      handed out, each holding a new document `added`; every other document
      of `c` is patched with `fields` when requested and present, and no
      other collection changes. */
  ghost predicate FamilyEffect(st: Store, r: Store, c: string, keys: nat -> string, n: nat, ids: seq<string>,
                               fields: Record, added: Record) {
    && r.minted == st.minted + n
    && (forall c', k :: c' != c ==> Lookup(r, c', k) == Lookup(st, c', k))
    && (forall m: nat :: st.minted <= m < st.minted + n ==> Lookup(r, c, keys(m)) == Some(added))
    && (forall k :: k !in AddedKeys(keys, st.minted, n) ==> Lookup(r, c, k) == PatchedLookup(st, c, k, ids, fields))
  }

  /** For a Users resource, every requested id missing from the mirror list
      adds one document holding the fields and the creation stamps, under
      the next generated key; every other document of the collection is
      patched with the update stamps when requested and present. */
  lemma {:induction false} UpdateEachFamilyAdds(list: seq<Record>, st: Store, keys: nat -> string, who: Principal,
                                                name: string, ids: seq<string>, body: Record)
    requires IsUsersFamily(name)
    requires FreshKeys(st, name, keys, |Select(ids, MissingIds(list))|, ids)
    ensures FamilyEffect(st, UpdateEach(list, st, keys, who, name, ids, body), name, keys,
                         |Select(ids, MissingIds(list))|, ids, body + ManyUpdateStamps(who), body + ManyCreateStamps(who))
    decreases |ids|
  {
    var fields, added := body + ManyUpdateStamps(who), body + ManyCreateStamps(who);
    if ids == [] {
      assert AddedKeys(keys, st.minted, 0) == {};
    } else {
      var id, rest := ids[0], ids[1..];
      var n := |Select(ids, MissingIds(list))|;
      var n' := |Select(rest, MissingIds(list))|;
      var st1 := UpdateUnawaited(st, name, id, fields);
      UpdateKeepsFresh(st, name, keys, n, ids, fields);
      if !HasRecord(list, id) {
        assert n == n' + 1;
        var st2 := AddDoc(st1, name, added, keys).store;
        AddKeepsFresh(st1, name, keys, n, rest, added);
        UpdateEachFamilyAdds(list, st2, keys, who, name, rest, body);
        var r := UpdateEach(list, st2, keys, who, name, rest, body);
        assert UpdateEach(list, st, keys, who, name, ids, body) == r;
        AddedStep(st, r, name, keys, n, ids, fields, added);
      } else {
        assert n == n';
        UpdateTwiceIsOnce(st, name, id, fields);
        UpdateEachFamilyAdds(list, st1, keys, who, name, rest, body);
        var r := UpdateEach(list, st1, keys, who, name, rest, body);
        assert UpdateEach(list, st, keys, who, name, ids, body) == r;
        PresentStep(st, r, name, keys, n, ids, fields, added);
      }
    }
  }

  /** Updating the first requested id, then patching for the others, is
      patching for all of them. */
  lemma PatchFirst(st: Store, c: string, ids: seq<string>, fields: Record, k: string)
    requires |ids| > 0
    ensures PatchedLookup(UpdateUnawaited(st, c, ids[0], fields), c, k, ids[1..], fields)
         == PatchedLookup(st, c, k, ids, fields)
  {
    assert k in ids <==> k == ids[0] || k in ids[1..] by {
      assert ids == [ids[0]] + ids[1..];
    }
    if k == ids[0] && Lookup(st, c, k).Some? {
      UpdateAgain(Lookup(st, c, k).value, fields);
    }
  }

  /** The update of the first requested id keeps the keys fresh for the rest. */
  lemma UpdateKeepsFresh(st: Store, c: string, keys: nat -> string, n: nat, ids: seq<string>, fields: Record)
    requires |ids| > 0 && FreshKeys(st, c, keys, n, ids)
    ensures FreshKeys(UpdateUnawaited(st, c, ids[0], fields), c, keys, n, ids[1..])
  {
    var st1 := UpdateUnawaited(st, c, ids[0], fields);
    forall m: nat | st1.minted <= m < st1.minted + n
      ensures Lookup(st1, c, keys(m)).None? && keys(m) !in ids[1..]
    {
      assert keys(m) != ids[0];
      assert keys(m) in ids[1..] ==> keys(m) in ids;
    }
  }

  /** Adding under the first generated key keeps the remaining keys fresh. */
  lemma AddKeepsFresh(st1: Store, c: string, keys: nat -> string, n: nat, rest: seq<string>, added: Record)
    requires n >= 1 && FreshKeys(st1, c, keys, n, rest)
    ensures FreshKeys(AddDoc(st1, c, added, keys).store, c, keys, n - 1, rest)
  {
    var st2 := AddDoc(st1, c, added, keys).store;
    forall m: nat | st2.minted <= m < st2.minted + (n - 1)
      ensures Lookup(st2, c, keys(m)).None?
    {
      assert keys(m) != keys(st1.minted);
    }
  }

  /** The keys handed out from `from` are the first one and those after it. */
  lemma AddedKeysStep(keys: nat -> string, from: nat, n: nat)
    requires n >= 1
    ensures AddedKeys(keys, from, n) == {keys(from)} + AddedKeys(keys, from + 1, n - 1)
  {
    forall k | k in AddedKeys(keys, from, n)
      ensures k in {keys(from)} + AddedKeys(keys, from + 1, n - 1)
    {
      var m: nat :| from <= m < from + n && keys(m) == k;
      if m > from {
        assert from + 1 <= m < from + 1 + (n - 1);
      }
    }
  }

  /** The induction step for an id missing from the mirror list. */
  lemma AddedStep(st: Store, r: Store, c: string, keys: nat -> string, n: nat, ids: seq<string>,
                  fields: Record, added: Record)
    requires n >= 1 && |ids| > 0 && FreshKeys(st, c, keys, n, ids)
    requires FamilyEffect(AddDoc(UpdateUnawaited(st, c, ids[0], fields), c, added, keys).store, r, c, keys,
                          n - 1, ids[1..], fields, added)
    ensures FamilyEffect(st, r, c, keys, n, ids, fields, added)
  {
    var st1 := UpdateUnawaited(st, c, ids[0], fields);
    var st2 := AddDoc(st1, c, added, keys).store;
    var first := keys(st.minted);
    AddedKeysStep(keys, st.minted, n);
    assert first !in AddedKeys(keys, st2.minted, n - 1);
    assert first !in ids[1..] by {
      assert first in ids[1..] ==> first in ids;
    }
    forall k | k !in AddedKeys(keys, st.minted, n)
      ensures Lookup(r, c, k) == PatchedLookup(st, c, k, ids, fields)
    {
      PatchFirst(st, c, ids, fields, k);
    }
  }

  /** The induction step for an id present in the mirror list. */
  lemma PresentStep(st: Store, r: Store, c: string, keys: nat -> string, n: nat, ids: seq<string>,
                    fields: Record, added: Record)
    requires |ids| > 0
    requires FamilyEffect(UpdateUnawaited(st, c, ids[0], fields), r, c, keys, n, ids[1..], fields, added)
    ensures FamilyEffect(st, r, c, keys, n, ids, fields, added)
  {
    forall k | k !in AddedKeys(keys, st.minted, n)
      ensures Lookup(r, c, k) == PatchedLookup(st, c, k, ids, fields)
    {
      PatchFirst(st, c, ids, fields, k);
    }
  }

  // ----------------------------------------------------------------- delete

  /** `apiDelete`: deletes the document and answers with the caller's
      `previousData`, without reading the store back. */
  function Delete(mirror: Registry, st: Store, name: string, id: string, previousData: Record): (out: Written<Record>)
    ensures name !in mirror ==> out == Written(Err(ResourceNotFound(name)), st)
    ensures name in mirror ==> out.result == Ok(previousData)
    ensures name in mirror ==> Lookup(out.store, name, id).None? && SameElsewhere(st, out.store, name, id)
    ensures out.store.minted == st.minted
  {
    if name !in mirror then Written(Err(ResourceNotFound(name)), st)
    else Written(Ok(previousData), DeleteDoc(st, name, id))
  }

  /** Deleting a document twice is deleting it once. */
  lemma DeleteIdempotent(mirror: Registry, st: Store, name: string, id: string, previousData: Record)
    ensures var once := Delete(mirror, st, name, id, previousData);
      Delete(mirror, once.store, name, id, previousData) == once
  {
    if name in mirror {
      var once := DeleteDoc(st, name, id);
      assert Docs(once, name) - {id} == Docs(once, name);
      assert once.collections[name := Docs(once, name)] == once.collections;
    }
  }

  /** The entry `apiDeleteMany` returns for one id. */
  function IdOnly(id: string): Record {
    map["id" := Str(id)]
  }

  /** `apiDeleteMany`: one batch deleting every requested document, and one
      `{ id }` entry per requested id. */
  function DeleteMany(mirror: Registry, st: Store, name: string, ids: seq<string>): (out: Written<seq<Record>>)
    ensures name !in mirror ==> out == Written(Err(ResourceNotFound(name)), st)
    ensures name in mirror ==> out.result.Ok?
    ensures out.result.Ok? ==> |out.result.value| == |ids|
    ensures out.result.Ok? ==> forall i :: 0 <= i < |ids| ==>
      out.result.value[i].Keys == {"id"} && out.result.value[i]["id"] == Str(ids[i])
    ensures name in mirror ==> forall k :: Lookup(out.store, name, k) == if k in ids then None else Lookup(st, name, k)
    ensures forall c, k :: c != name ==> Lookup(out.store, c, k) == Lookup(st, c, k)
  {
    if name !in mirror then Written(Err(ResourceNotFound(name)), st)
    else Written(Ok(Map(ids, IdOnly)), DeleteBatch(st, name, ids))
  }

  /** Repeating `apiDeleteMany` with the same ids does not fail, answers the
      same and leaves the store as the first call left it. */
  lemma DeleteManyIdempotent(mirror: Registry, st: Store, name: string, ids: seq<string>)
    ensures var once := DeleteMany(mirror, st, name, ids);
      DeleteMany(mirror, once.store, name, ids) == once
  {
    if name in mirror {
      DeleteBatchIdempotent(st, name, ids);
    }
  }
}
